=== FILE: README.md ===
# GP session limiter middleware, modelled in Dafny

The middleware keeps a Cisco ISE identity group in step with the users that a
Palo Alto GlobalProtect gateway reports as connected. It also sends an HTML
mail when a duplicate login attempt is detected. This project models the logic
of its scripts as pure functions over immutable values, and proves what that
logic guarantees.

Every document the system reads is modelled as an already-parsed Python value:
the gateway's XML answer after `xmltodict.parse`, the identity store's JSON
answer after `.json()`, and the YAML configuration after `yaml.load`. These
values are `Values.Value`. A remote call that may be retried is a sequence of
attempt outcomes (`Retry.Attempt`): each attempt either raised or returned a
document. Every retry loop in the source allows three attempts
(`Retry.MaxAttempts`).

Modules, one per concern:

- `Reconcile`: the two diff lambdas of `main.py`, which compute who leaves the
  ISE group and who joins it.
- `PanFw`: `pan_fw.py`. Covers the 3-attempt keygen loop, building session
  records from the parsed `<result>`, and extracting the user names.
- `CiscoIse`: `cisco_ise.py`. Covers:
  - the name-keyed user cache and its bulk refresh;
  - per-user enrichment;
  - the attribute update;
  - the removal of users from the GP group.
- `BasicAuth`, `Base64`, `Utf8`: the `ise_auth` token (HTTP Basic, section 2
  of RFC 7617), with Base64 as in RFC 4648 and UTF-8 as Python applies it.
- `Config`, `Prompt`: `config.py`. Covers:
  - the six environment overrides of `get_config`;
  - the y/n prompts;
  - the four credential steps of `initialize_credentials`, including Base64
    storage of the mail password.
- `MailSender`, `MailBody`: `mailsender.py`. Covers:
  - the password used for the SMTP login, and the guard around the login;
  - the STARTTLS branch and the `To` header;
  - the True/False outcome of `send_mail`;
  - where `mail_html_body` places each field.
- `TestCases`: `testcases.py`. Covers `get_trailing_number`, the `get_groups`
  table, the user-creation payload and the create/delete calls.
- `Text`, `Values`, `Retry`, `Common`: shared helpers, namely Python string
  operations, nested-dict access and assignment, the retry loop, and
  `Option`/`Result`.

Errors are collapsed into two kinds:

- `Unreachable`: every attempt raised, or a value was left unbound because of
  that.
- `Malformed`: a `KeyError`, `TypeError` or decoding error raised by a document
  of the wrong shape.

`send_mail` is modelled as written for a stored password that does not decode.
The login fails, and the `except` handler decodes the password a second time
for its debug line (mailsender.py:57). That second decode raises out of
`send_mail` instead of letting it return False. `MailSender.SendMail` reports
this case as `Err(Malformed)`.

## Model

| member | source | states |
|---|---|---|
| Reconcile.Without | main.py:9-10 | `filter(lambda _: _ not in excluded, s)` keeps exactly the elements of s that are not in excluded, each with its full multiplicity. |
| Reconcile.WithoutIsSubsequence | main.py:9-10 | The filtered list is a subsequence of the original, at increasing positions, so the original order is kept. |
| Reconcile.WithoutAllExcluded | main.py:9-10 | Filtering a list whose every element is excluded gives the empty list. |
| Reconcile.DeleteList | main.py:9 | A name is in the delete list iff it is in the ISE group and not reported by the gateway. Its multiplicity is the group's, or 0. |
| Reconcile.AddList | main.py:10 | A name is in the add list iff the gateway reports it and the ISE group lacks it. Its multiplicity is the gateway's, or 0. |
| Reconcile.ListsKeepOrder | main.py:9-10 | The delete list is a subsequence of the ISE group, and the add list of the gateway list. |
| Reconcile.SameNamesNothingToDo | main.py:9-10 | When both sides hold the same names, both lists are empty. |
| Reconcile.Converges | main.py:39-48 | The two lists are disjoint. Removing the delete list and appending the add list leaves the group holding exactly the gateway's names. Recomputing the diff afterwards gives two empty lists. |
| Reconcile.NamesAreCaseSensitive | main.py:9-10 | Names are compared exactly: a member "alice" is removed even though the gateway reports "Alice", and "Alice" is added. |
| PanFw.FwKey | pan_fw.py:20-31 | Returns `False` (Ok(None)) iff all three keygen attempts raised. Otherwise the first answer decides: its `response.result.key`, or an uncaught error when that path is missing. The first answer is never retried. |
| PanFw.Record | pan_fw.py:58-63 | A record exists iff the entry is a dict holding `username`, `computer`, `client` and `client-ip`. It has exactly the four keys, each copied from its source field. |
| PanFw.Records | pan_fw.py:57-63 | One record per entry, in entry order. It fails iff some entry lacks a field. |
| PanFw.Entries | pan_fw.py:55-57 | The entries the loop visits: a lone dict `entry` is wrapped into a one-element list, a list `entry` gives its items, and a missing `entry` raises. |
| PanFw.FwGpExt | pan_fw.py:43-67 | A request that raised becomes the `ValueError` (Err(Unreachable)) and never an empty list. Every record returned has exactly the four session keys. |
| PanFw.FalsyResultHasNoUsers | pan_fw.py:51-53 | A falsy `result` (no users connected) gives the empty list. |
| PanFw.LoneEntryIsOneRecord | pan_fw.py:55-56 | A lone session parsed as a dict is wrapped and gives exactly one record. |
| PanFw.EntryListIsRecordList | pan_fw.py:57-63 | A list of sessions gives one record per session, in order. The call fails iff some session lacks a field. |
| PanFw.FwGpLst | pan_fw.py:70-74 | The `Username` of every record, with the same length and order. It fails iff some record lacks `Username`. |
| PanFw.SessionUserNames | pan_fw.py:70-74 | On the records of `fw_gp_ext`, name extraction never fails and yields one name per session, in session order. |
| PanFw.DuplicateSessionsKept | pan_fw.py:57-74 | Two sessions of one user give that name twice; nothing is merged. |
| CiscoIse.GetAllUsers | cisco_ise.py:91-113 | When all three attempts raised, the result is None and the cache is unchanged. Otherwise the first answer's resources are merged into the cache by name. A merge that raises part way keeps what it merged so far. No cached name is ever lost. |
| CiscoIse.Resources | cisco_ise.py:110-111 | The resources the merge loop visits: a list at `SearchResult.resources` gives its items. A missing path, `None` or a number raises. |
| CiscoIse.RefreshCachesEveryResource | cisco_ise.py:110-113 | After a complete refresh, every resource is cached under its name, with the last duplicate winning. Cached users that the answer does not mention keep their records. |
| CiscoIse.Details | cisco_ise.py:116-129 | The details record exists iff the cached record has `id` and `name`, the request returned, and the answer has `InternalUser`. |
| CiscoIse.Enrich | cisco_ise.py:132-152 | A returned user is the details answer's `InternalUser` and is cached under the user name. On a cache hit, only that user's record may change. An outage on a miss returns None and keeps the cache. |
| CiscoIse.CacheHitSkipsRefresh | cisco_ise.py:135-138 | On a cache hit the bulk answers are never consulted. |
| CiscoIse.EnrichAsWritten | cisco_ise.py:132-152 | As written: a refresh in which every attempt raised sets the cache to `None`, and every later call returns None. |
| CiscoIse.AsWrittenAgreesWithoutOutage | cisco_ise.py:132-152 | Outside that outage, the as-written and the corrected enrichment agree. |
| CiscoIse.OutageLosesCacheAsWritten | cisco_ise.py:135-139 | As written, one lookup of an uncached user during an outage loses the whole cache. A user who was cached, with a good details answer, then cannot be enriched. |
| CiscoIse.OutageKeepsCache | cisco_ise.py:135-139 | Corrected: the failed lookup leaves the cache intact, and the cached user is still enriched. |
| CiscoIse.UpdatePayload | cisco_ise.py:206-214 | The update body carries the name and the id, and carries `customAttributes` iff the attribute map is non-empty. |
| CiscoIse.WriteAttributes | cisco_ise.py:226 | The cache write succeeds iff the name is a string naming a cached dict. It keeps the set of users and sets that user's `customAttributes`. |
| CiscoIse.WriteAttributesFrame | cisco_ise.py:226 | The write changes no other user and no other field of that user. |
| CiscoIse.SendUpdate | cisco_ise.py:215-232 | It makes one to three attempts, all with the same body. Returns None iff all raised, in which case the cache is unchanged. Once an attempt answers, whatever its status code, the attributes are written to the cache, and a failed write raises with the cache unchanged. After the write, the update returns the response iff its body parses as JSON. Otherwise the debug line's `res.json()` raises, with the attributes already cached. |
| CiscoIse.NonJsonReplyRaisesAfterWrite | cisco_ise.py:224-229 | A first answer whose body is not JSON ends the loop after one request: the attributes are cached, and then the update raises instead of returning. |
| CiscoIse.UpdateUser | cisco_ise.py:192-232 | Returns `False` with no request iff enrichment gives no user. It sends no request iff the user or its `id`/`name` is missing. An enriched record without `id` or `name`, or one that is not a dict, raises before any request (cisco_ise.py:206, 209). Otherwise it runs the request loop on the enriched cache. The enrichment is the corrected `CiscoIse.Enrich` (see Findings). |
| CiscoIse.UpdateRecordsAttributes | cisco_ise.py:226-227 | Once an update request answers and the write succeeds, the user's attributes are replaced wholesale, even by an empty map, and every other cached user is unchanged. This holds whether the update returns the response or then raises on a non-JSON body. |
| CiscoIse.RemovalPayload | cisco_ise.py:165-170 | The removal body holds exactly the user name and the target group. |
| CiscoIse.FirstUpdatedField | cisco_ise.py:182 | Gives a result iff `UpdatedFieldsList.updatedField` is a non-empty list whose first entry has a `field`, and the result is that `field`. |
| CiscoIse.RemoveOne | cisco_ise.py:171-188 | The user is skipped iff all three attempts raised. Otherwise the first answer decides between moved and not moved, and a malformed answer raises. |
| CiscoIse.RemoveFromGroup | cisco_ise.py:155-189 | Returns True iff no user's answer is malformed. In that case it reports one result per user, in order. |
| BasicAuth.Token | cisco_ise.py:47-50 | The token is `Basic ` followed by only Base64 symbols and pads, of the Base64 length of the credentials. It decodes back to the UTF-8 bytes of `uname:pwd`. The `ise_auth` of config.py:58-60 builds the same text: it reads the Base64 output as UTF-8 rather than ASCII, which gives the same characters. |
| BasicAuth.ParseToken | cisco_ise.py:49 | For a colon-free user name, splitting the decoded token at its first colon gives back the user name and the password. |
| BasicAuth.ColonInUserNameIsAmbiguous | cisco_ise.py:49 | With a colon in the user name, two different credential pairs give the same token. |
| Base64.Encode | config.py:197-198 | The encoding has four characters per started group of three bytes: symbols followed by the right number of pads. |
| Base64.DecodeEncode | mailsender.py:51-52 | Decoding an encoding gives the bytes back. |
| Base64.Decode | mailsender.py:51-52 | A decodable text has 4·⌈n/3⌉ characters for n decoded bytes, the length `Base64.Encode` produces. A length that is not a multiple of four never decodes. `Base64.DecodeEncode` is the round trip. |
| Base64.EncodeInjective | config.py:197-198 | Different byte strings have different encodings. |
| Utf8.Encode | config.py:197-198 | The UTF-8 encoding is at least one byte per character. |
| Utf8.DecodeEncode | mailsender.py:51-52 | Decoding the UTF-8 bytes of a string gives the string back. |
| Utf8.Decode | mailsender.py:51-52 | The decoder is strict: whatever it accepts is the UTF-8 encoding of its result, so encoding the result gives the bytes back. With `Utf8.DecodeEncode`, decoding and encoding are inverse. |
| Utf8.EncodeInjective | config.py:197-198 | Different strings have different UTF-8 bytes. |
| Retry.Run | pan_fw.py:20-31 | The loop makes one to three attempts. It returns nothing iff all three raised. Otherwise it stops at the first attempt that returned and uses that attempt's answer. |
| Retry.RunIgnoresLaterAnswers | cisco_ise.py:98-113 | Answers after the attempt that ended the loop never matter. |
| Retry.RunStopsAtFirstReturned | cisco_ise.py:98-113 | If attempt k is the first that returned, the loop makes k+1 attempts and uses answer k. |
| Values.SetPath | config.py:68-79 | A nested assignment succeeds iff every dict on its way exists. Afterwards the path holds the new value. |
| Values.Render | testcases.py:90 | An f-string hole shows a string as itself. It shows any other value through the given `str()`. |
| Values.Elements | cisco_ise.py:111 | A `for` loop that indexes its items with string keys visits the items of a list, and nothing for an empty string or dict. It raises for any other value. |
| Values.SetPathFrame | config.py:68-79 | An assignment leaves every path unrelated to its own as it was. |
| Values.SetPathSettableIff | config.py:68-79 | An assignment neither enables nor disables a later assignment at an unrelated path. |
| Values.IndexByName | cisco_ise.py:111-112 | The keyed fold never loses keys. It completes iff every item yields its name and value. |
| Values.Entry | cisco_ise.py:112 | `index[item['name']] = …` stores an entry iff the item has a string `name` and, for a projection, the projected field. The key is that name, and the value is the item or its field. |
| Values.IndexKeepsUnnamed | cisco_ise.py:111-112 | A name that no item carries keeps its previous value, or stays absent. |
| Values.IndexLastWins | testcases.py:45-46 | The last item carrying a name decides that name's value. |
| Values.IndexHasEveryName | testcases.py:45-46 | Every item's name is a key afterwards. |
| Values.IndexStopsAtMalformed | cisco_ise.py:111-112 | The fold raises at the first malformed item and keeps exactly the assignments made before it. |
| Text.Strip | config.py:114 | `strip()` gives the empty string iff the text is all whitespace. Otherwise the result neither starts nor ends with whitespace. |
| Text.StripPadded | config.py:114 | Whitespace added at either end does not change `strip()`. |
| Text.StripFindsCore | config.py:114 | A text with no whitespace at either end, surrounded by whitespace, is exactly what `strip()` returns. |
| Text.SplitJoin | mailsender.py:71 | Cutting `', '.join(addrs)` at its separators gives the addresses back, as long as none contains a comma. |
| Text.ToDecimal | testcases.py:93 | `str(n)` is non-empty, all digits, and has no leading zero unless n is 0. |
| Text.DecimalRoundTrip | testcases.py:93 | `int(str(n)) == n`. |
| Text.DecimalLeadingZero | testcases.py:21 | A leading zero does not change what `int()` reads. |
| Prompt.Classify | config.py:114-128 | After stripping, an answer is Yes iff it starts with `y` or is exactly `Y`, which is checked first. It is No iff it is not Yes and is empty, starts with `n` or is exactly `N`. Anything else, such as `Yes`, asks again. An all-whitespace answer is No. |
| Prompt.YesGuardsAgree | config.py:133 | The differently grouped yes-tests of the first prompt and the later prompts accept the same answers. |
| Prompt.DecidingWords | config.py:114-128 | `yes` and `Y` decide Yes, and `no` and `N` decide No, whatever whitespace surrounds them. |
| Prompt.CapitalisedWordsAskAgain | config.py:114-128 | `Yes` and `No` decide nothing, and the prompt asks again. |
| Prompt.BareYesAsksAgain | config.py:114-128 | The bare answer `Yes` asks again. |
| Prompt.ClassifyIgnoresPadding | config.py:114 | Surrounding whitespace does not change the decision. |
| Prompt.FirstDecision | config.py:113-128 | The position of the first decision that is not Again, or None iff there is none. |
| Prompt.Ask | config.py:111-128 | A prompt loop ends at the first answer that decides, and every answer before it asks again. It is still waiting iff no answer decides. |
| Config.OverridesIndependent | config.py:68-79 | The six override paths are non-empty, and none leads through another. |
| Config.ApplyOverrides | config.py:68-79 | It raises iff some assignment for a set variable raises. Otherwise each set variable's path holds its value, and every path unrelated to the set variables is unchanged. |
| Config.GetConfig | config.py:63-83 | Same guarantees for the six overrides of `get_config`. |
| Config.NoVariablesNoChange | config.py:68-83 | With none of the six variables set, the configuration is returned as loaded. |
| Config.IsePasswordOverride | config.py:78-79 | Setting only `ISE_PWD` changes the ISE password and no unrelated path. |
| Config.SetTop | config.py:119 | A top-level assignment succeeds iff the document is a dict, and it sets only that key. |
| Config.ApiCredentials | config.py:119-120 | Adds `api_user` and `api_password` (the hash) and keeps every other key. |
| Config.FwKeyOrNone | config.py:24-44 | None when all attempts raised. Otherwise the key of the first answer, or None when that answer lacks one. |
| Config.FwKeyVariantsAgree | config.py:24-44 | The keygen function of config.py finds the same key as the one of pan_fw.py, and answers None wherever that one fails. |
| Config.FirstKey | config.py:135-140 | The key loop ends at the first truthy key, and every earlier round failed. It is still asking iff no round succeeds. |
| Config.FwKeyStep | config.py:144 | Stores the key at `fw_credentials.api_key` iff `fw_credentials` is a dict. Every unrelated path is unchanged. |
| Config.IseTokenStep | config.py:162-170 | Stores the Basic token in `ise_credentials` and removes `username` and `password` there. Every other key is unchanged. |
| Config.StoredPassword | config.py:197-198 | The stored mail password Base64- and UTF-8-decodes back to the typed password. It is empty iff the password is empty. |
| Config.MailStep | config.py:188-198 | Sets the sender, the login user (the sender when left empty) and the stored password, and keeps every other key. |
| Config.Step | config.py:159-179 | A prompt that decides No keeps the configuration. One that decides Yes applies its step and marks the configuration modified. With no decision yet, it is still waiting. |
| Config.InitializeCredentials | config.py:98-207 | A configuration that is not a dict holding `fw_ip`, `ise_api_ip` and `smtp_server` raises at the header prints (config.py:103-105), before any prompt. Otherwise the configuration is saved (modified) iff some prompt decided Yes, and an unmodified run leaves the configuration as loaded. |
| MailSender.LoginRecoversStoredPassword | mailsender.py:51-52 | The login password decoded from what the configuration tool stored is exactly the typed password. |
| MailSender.LoginPassword | mailsender.py:51-52 | The login password is p exactly when the stored text Base64-decodes to the UTF-8 bytes of p. `MailSender.LoginRecoversStoredPassword` applies this to what the configuration tool stores. |
| MailSender.StoredPasswordInjective | config.py:197-198 | Two different passwords are never stored alike. |
| MailSender.WillLogIn | mailsender.py:47 | A login is attempted iff the stored password is not all whitespace. |
| MailSender.StoredPasswordLogsIn | mailsender.py:47 | A stored password leads to a login iff the typed password was non-empty. |
| MailSender.ToHeaderLists | mailsender.py:68-71 | For one address or a non-empty comma-free list, cutting the `To` header at its separators gives the recipients back. |
| MailSender.ToHeader | mailsender.py:68-71 | One address is the header itself, and a one-element list gives the same header. `MailSender.ToHeaderLists` shows that a longer list splits back into its addresses. |
| MailSender.SendMail | mailsender.py:20-82 | The steps taken are a prefix of connect, STARTTLS (only for `tls`), login (only behind its guard) and send, and all but the last succeeded. Returns True iff every planned step succeeds. Otherwise the last step taken failed. It raises iff that step is a login whose password does not decode. |
| MailSender.Plan | mailsender.py:31-47 | The intended steps end with send, take two to four steps, and never repeat a step. |
| MailSender.PlanShape | mailsender.py:31-47 | The plan starts with connect. STARTTLS is in it iff the server type is `tls`, and then comes second. The login is in it iff its guard holds, and then comes right after connect or STARTTLS. |
| MailSender.OptionalSteps | mailsender.py:31-47 | STARTTLS is attempted only for server type `tls`, and a login only with a password that is not blank. |
| MailSender.FailedLoginRaises | mailsender.py:51-60 | When a login fails on a password that does not decode, `send_mail` does not return True. It raises iff the login was reached. |
| MailSender.UndecodablePasswordRaises | mailsender.py:47-60 | An undecodable stored password never lets the mail go out. The call raises once the login is reached. |
| MailBody.Rendered | mailsender.py:134-171 | The field values exist iff every lookup succeeds. There is one value per path, each the value found there. |
| MailBody.FillAt | mailsender.py:86-176 | In the filled template, value i sits at its offset and is followed by the next fixed segment. |
| MailBody.OffsetsIncrease | mailsender.py:86-176 | Each value ends before the next one starts. |
| MailBody.HtmlBody | mailsender.py:85-177 | The body exists iff all nine fields are present in `data`. Otherwise the lookup error is reported. |
| MailBody.PlacedInOrder | mailsender.py:86-176 | In a filled template, value i appears at its offset, before value j for every j > i. |
| MailBody.BodyPlacesFields | mailsender.py:134-171 | The body shows the user name, then the old session's hostname, OS, IP and region, then the new session's same four fields, each at its hole and in that order. |
| TestCases.TrailingRun | testcases.py:20 | The length of the maximal run of ASCII digits the text ends with. |
| TestCases.TrailingNumber | testcases.py:19-21 | None iff the text is empty or does not end with a digit. |
| TestCases.NumberAfterNonDigit | testcases.py:20-21 | Digits after a non-digit (or at the start) give their value. |
| TestCases.TrailingNumberRoundTrip | testcases.py:19-21 | A prefix not ending in a digit, followed by `str(n)`, gives back n. |
| TestCases.TrailingNumberSkipsZero | testcases.py:21 | Leading zeros of the run are dropped: `user007` gives 7, like `user7`. |
| TestCases.RunInsideTail | testcases.py:20 | When the tail holds a non-digit, the run is measured inside the tail alone. |
| TestCases.TrailingNumberIgnoresHead | testcases.py:20 | Everything before the final run, digits included, does not change the number. |
| TestCases.GetGroups | testcases.py:43-47 | A table exists iff the answer has `SearchResult.resources` and every resource yields a string `name` and an `id`. |
| TestCases.GetGroupsTable | testcases.py:44-47 | The table's keys are exactly the resources' names, each mapped to the id of the last resource carrying it. |
| TestCases.LastNameKeepsNumber | testcases.py:93 | Reading the number back from `lastName` gives the user name's number, None included. |
| TestCases.LastName | testcases.py:93 | The last name starts with `User ` and is `User None` iff the user name has no trailing number. `TestCases.LastNameKeepsNumber` shows that it carries the number. |
| TestCases.TestUserLastName | testcases.py:132-135 | The generated users `user<i>` and `extuser<i>` get the last name `User <i>`. |
| TestCases.CreatePayload | testcases.py:85-95 | The creation body holds the name, password and email as given, `identityGroups` as the group id's text, `changePassword` "false", `firstName` "Test" and the derived last name. |
| TestCases.Attempted | testcases.py:96-113 | It makes one to three attempts. The result is an error iff all raised, because `result` is then unbound. Otherwise it is the first answer that returned. |
| TestCases.DeleteUser | testcases.py:52-76 | A DELETE to `/ers/config/internaluser/<id>` with no body, under the three-attempt loop. |
| TestCases.CreateUser | testcases.py:79-113 | A POST of the creation body to `/ers/config/internaluser`, under the three-attempt loop. |
| TestCases.CallIgnoresLaterAnswers | testcases.py:59-75 | Answers after the attempt that ended the loop never matter. |

## Left out

- Network, SMTP and HTTP I/O (`requests`, `smtplib`, `ise_api_call`): each remote call is a given attempt outcome, or a given per-step result for SMTP. So is the `UnboundLocalError` that `ise_api_call` raises after a failed request.
- apiserver.py and healthmonitor.py: web and monitoring plumbing. healthmonitor.py uses only `json` and `urllib` and calls nothing in cisco_ise.py. apiserver.py calls `cisco_ise.ise_auth` (modelled as `BasicAuth.Token`), and also `ise_add_grp_to_user` and `ise_del_grp_from_user` (apiserver.py:64, 76), which cisco_ise.py does not define. logger.py is not part of this model.
- BasicAuth.Token: is total over Dafny strings, whose characters are Unicode scalar values. A Python `str` read from the environment (`ISE_UNAME`, `ISE_PWD`) can hold lone surrogates, and `.encode('utf-8')` then raises `UnicodeEncodeError` (cisco_ise.py:49, config.py:59). That raise is not modelled, because lone surrogates cannot be represented.
- main.py's environment reading and its calls to `ise_users_all`, `ise_user_gp`, `ise_grp_id` and `ise_add_gp_users`: these are not defined in cisco_ise.py. Only the diff lambdas and their combined effect (`Reconcile.Converges`) are modelled.
- Pickle persistence of the user cache (`load_user_data`, `save_user_data`) and YAML load/dump/chmod: the cache and the configuration are in-memory values.
- XML and JSON parsing and `json.dumps`: documents and payloads are already-parsed values. Where the source inspects an answer, one whose `.json()` itself raises is not distinguished from a malformed document. The update answer is never inspected, so for it a body that does not parse is modelled on its own (`CiscoIse.Reply`).
- CiscoIse.UpdateUser: composes the corrected enrichment `CiscoIse.Enrich`, not `CiscoIse.EnrichAsWritten`. After a lookup during a full outage of the bulk requests, the source leaves the global cache `None` (cisco_ise.py:138), but `UpdateUser` keeps the previous cache. The as-written behaviour is stated separately, in the Findings row.
- The argon2 hash of the API password, `getpass`/`input`, `print`, `exit` and the sleeps between attempts: the hash and the prompt answers are parameters.
- The second `get_config()` call in `initialize_credentials` (config.py:106): the model starts from one loaded configuration. The header prints before it are modelled only for the `KeyError` their reads can raise.
- config.py:67 makes `orig_config` and `config` the same object, so the save at config.py:81-82 never fires. The model does not represent the save.
- Config.FwKeyStep: does not remove `fw_credentials.username`/`password` (config.py:145-148). Those lines test the top-level keys of the configuration, so the removal, or a `KeyError` from it, depends on unrelated top-level fields. The frame clause of FwKeyStep therefore does not hold for a configuration with a top-level `username` or `password`.
- `fw_key`'s set-valued request parameters (`{uname}`, `{pwd}`): only the answers are modelled.
- Base64.Decode: decodes only well-formed, padded encodings. Python's lenient `b64decode` of other input (discarding stray characters) is not modelled.
- TestCases.TrailingNumber: only ASCII digits count, and `$` matches only at the very end. Python's `\d` also accepts other Unicode digits, and `$` also matches before a final newline.
- Names that are not strings in `get_groups` and in the cache merge: a non-string `name` is treated as malformed, while Python would use it as a dict key.
- `str()` of a value that is not a string (in the mail body, the group id and the delete path): given by a `show` function parameter.
- MIME message construction and `mail_server.quit()`: the delivery step stands for building and sending the message together, and a `quit()` that raises after delivery is not modelled.
- `mail_to` values other than a string or a list of strings, and a `None` mail password.
- The main loop of testcases.py (random group choice, 5000 users, status-code prints): only the helpers it calls are modelled.
- Floating-point values in documents: `Values.Value` has no floats.

## Findings

| source | as written | input that shows it | evidently intended | confidence | as-written member | corrected member |
|---|---|---|---|---|---|---|
| cisco_ise.py:138 | `all_users = ise_get_all_users(...)` assigns the refresh's result to the global cache, and that result is `None` when all three attempts raised. Every later `username in all_users` then raises `TypeError`, and `ise_enrich_user` returns None for every user, cached or not. | A lookup of a user missing from a non-empty cache while all three bulk requests raise; then a lookup of a cached user with a good details answer. | A failed refresh leaves the cache as it was, and cached users can still be enriched. | not executed | CiscoIse.OutageLosesCacheAsWritten | CiscoIse.OutageKeepsCache |

=== FILE: base64.dfy ===
/** The Base64 encoding of section 4 of RFC 4648: every three bytes become four
    symbols of a 64-character alphabet, and a final group of one or two bytes is
    completed with one or two `=` pad characters. */
module Base64 {
  import opened Common

  const Pad: char := '='

  /** The symbol for a six-bit value (the table of section 4 of RFC 4648). */
  function Symbol(i: int): char
    requires 0 <= i < 64
  {
    if i < 26 then (('A' as int) + i) as char
    else if i < 52 then (('a' as int) + (i - 26)) as char
    else if i < 62 then (('0' as int) + (i - 52)) as char
    else if i == 62 then '+'
    else '/'
  }

  /** The six-bit value a symbol stands for; None for the pad and any other character. */
  function Index(c: char): (r: Option<int>)
    ensures r.Some? ==> 0 <= r.value < 64
  {
    if 'A' <= c <= 'Z' then Some((c as int) - ('A' as int))
    else if 'a' <= c <= 'z' then Some((c as int) - ('a' as int) + 26)
    else if '0' <= c <= '9' then Some((c as int) - ('0' as int) + 52)
    else if c == '+' then Some(62)
    else if c == '/' then Some(63)
    else None
  }

  predicate IsSymbol(c: char) {
    Index(c).Some?
  }

  /** Index is the inverse of Symbol, and the pad is not a symbol. */
  lemma IndexOfSymbol(i: int)
    requires 0 <= i < 64
    ensures Index(Symbol(i)) == Some(i)
    ensures Symbol(i) != Pad
  {
  }

  /** How many pad characters end the encoding of n bytes. */
  function PadCount(n: nat): nat {
    (3 - n % 3) % 3
  }

  /** Four symbols for three bytes. */
  function EncodeGroup(b0: byte, b1: byte, b2: byte): string {
    [Symbol(b0 / 4), Symbol((b0 % 4) * 16 + b1 / 16), Symbol((b1 % 16) * 4 + b2 / 64), Symbol(b2 % 64)]
  }

  /** s is symbols followed by `pads` pad characters. */
  predicate Alphabet(s: string, pads: nat) {
    && pads <= |s|
    && (forall i :: 0 <= i < |s| ==> (i < |s| - pads <==> IsSymbol(s[i])))
    && (forall i :: |s| - pads <= i < |s| ==> s[i] == Pad)
  }

  /** A full group is four symbols. */
  lemma GroupAlphabet(b0: byte, b1: byte, b2: byte)
    ensures Alphabet(EncodeGroup(b0, b1, b2), 0)
  {
    IndexOfSymbol(b0 / 4);
    IndexOfSymbol((b0 % 4) * 16 + b1 / 16);
    IndexOfSymbol((b1 % 16) * 4 + b2 / 64);
    IndexOfSymbol(b2 % 64);
  }

  /** Symbols before an encoding keep it an encoding with the same padding. */
  lemma ConcatAlphabet(head: string, tail: string, pads: nat)
    requires Alphabet(head, 0) && Alphabet(tail, pads)
    ensures Alphabet(head + tail, pads)
  {
    var s := head + tail;
    assert forall i :: 0 <= i < |head| ==> s[i] == head[i];
    assert forall i :: |head| <= i < |s| ==> s[i] == tail[i - |head|];
  }

  /** The final group of one or two bytes, completed with pads. */
  function FinalGroup(bs: seq<byte>): (s: string)
    requires 1 <= |bs| <= 2
    ensures |s| == 4 && Alphabet(s, 3 - |bs|)
  {
    if |bs| == 1 then
      IndexOfSymbol(bs[0] / 4);
      IndexOfSymbol((bs[0] % 4) * 16);
      [Symbol(bs[0] / 4), Symbol((bs[0] % 4) * 16), Pad, Pad]
    else
      IndexOfSymbol(bs[0] / 4);
      IndexOfSymbol((bs[0] % 4) * 16 + bs[1] / 16);
      IndexOfSymbol((bs[1] % 16) * 4);
      [Symbol(bs[0] / 4), Symbol((bs[0] % 4) * 16 + bs[1] / 16), Symbol((bs[1] % 16) * 4), Pad]
  }

  /** `base64.b64encode(bs)`, read as text: four characters for every started
      group of three bytes, symbols followed by the pads. */
  function Encode(bs: seq<byte>): (s: string)
    ensures |s| == 4 * ((|bs| + 2) / 3)
    ensures Alphabet(s, PadCount(|bs|))
    decreases |bs|
  {
    if |bs| == 0 then ""
    else if |bs| < 3 then FinalGroup(bs)
    else
      var head := EncodeGroup(bs[0], bs[1], bs[2]);
      var tail := Encode(bs[3..]);
      GroupAlphabet(bs[0], bs[1], bs[2]);
      assert PadCount(|bs|) == PadCount(|bs| - 3);
      ConcatAlphabet(head, tail, PadCount(|bs|));
      head + tail
  }

  /** Three bytes from four symbols. */
  function DecodeGroup(q: string): Option<seq<byte>>
    requires |q| == 4
  {
    match (Index(q[0]), Index(q[1]), Index(q[2]), Index(q[3]))
    case (Some(c0), Some(c1), Some(c2), Some(c3)) =>
      Some([c0 * 4 + c1 / 16, (c1 % 16) * 16 + c2 / 4, (c2 % 4) * 64 + c3])
    case _ => None
  }

  /** The last group: four symbols, or two or three symbols completed by pads. */
  function DecodeLastGroup(q: string): Option<seq<byte>>
    requires |q| == 4
  {
    if q[2] == Pad && q[3] == Pad then
      match (Index(q[0]), Index(q[1]))
      case (Some(c0), Some(c1)) => Some([c0 * 4 + c1 / 16])
      case _ => None
    else if q[3] == Pad then
      match (Index(q[0]), Index(q[1]), Index(q[2]))
      case (Some(c0), Some(c1), Some(c2)) => Some([c0 * 4 + c1 / 16, (c1 % 16) * 16 + c2 / 4])
      case _ => None
    else DecodeGroup(q)
  }

  /** `base64.b64decode(s)` on a well-formed encoding: a multiple of four
      characters, pads only at the very end. None for anything else. */
  function Decode(s: string): (r: Option<seq<byte>>)
    ensures r.Some? ==> |s| == 4 * ((|r.value| + 2) / 3)
    ensures |s| % 4 != 0 ==> r.None?
    decreases |s|
  {
    if |s| == 0 then Some([])
    else if |s| < 4 then None
    else if |s| == 4 then DecodeLastGroup(s)
    else match DecodeGroup(s[..4])
      case None => None
      case Some(head) =>
        match Decode(s[4..])
        case None => None
        case Some(tail) => Some(head + tail)
  }

  /** Decoding the symbols of one group gives its bytes back. */
  lemma DecodeEncodeGroup(b0: byte, b1: byte, b2: byte)
    ensures DecodeGroup(EncodeGroup(b0, b1, b2)) == Some([b0, b1, b2])
  {
    IndexOfSymbol(b0 / 4);
    IndexOfSymbol((b0 % 4) * 16 + b1 / 16);
    IndexOfSymbol((b1 % 16) * 4 + b2 / 64);
    IndexOfSymbol(b2 % 64);
    assert ((b0 % 4) * 16 + b1 / 16) / 16 == b0 % 4;
    assert ((b0 % 4) * 16 + b1 / 16) % 16 == b1 / 16;
    assert ((b1 % 16) * 4 + b2 / 64) / 4 == b1 % 16;
    assert ((b1 % 16) * 4 + b2 / 64) % 4 == b2 / 64;
  }

  /** The one-byte final group decodes back. */
  lemma DecodeEncodeOne(b0: byte)
    ensures Decode(FinalGroup([b0])) == Some([b0])
  {
    IndexOfSymbol(b0 / 4);
    IndexOfSymbol((b0 % 4) * 16);
    assert ((b0 % 4) * 16) / 16 == b0 % 4;
  }

  /** The two-byte final group decodes back. */
  lemma DecodeEncodeTwo(b0: byte, b1: byte)
    ensures Decode(FinalGroup([b0, b1])) == Some([b0, b1])
  {
    var c1 := (b0 % 4) * 16 + b1 / 16;
    var c2 := (b1 % 16) * 4;
    IndexOfSymbol(b0 / 4);
    IndexOfSymbol(c1);
    IndexOfSymbol(c2);
    assert c1 / 16 == b0 % 4 && c1 % 16 == b1 / 16;
    assert c2 / 4 == b1 % 16;
    var s := FinalGroup([b0, b1]);
    assert s == [Symbol(b0 / 4), Symbol(c1), Symbol(c2), Pad];
    assert s[2] != Pad;
    assert DecodeLastGroup(s) == Some([(b0 / 4) * 4 + c1 / 16, (c1 % 16) * 16 + c2 / 4]);
  }

  /** A full group of three bytes, alone, decodes back. */
  lemma DecodeEncodeThree(b0: byte, b1: byte, b2: byte)
    ensures Decode(EncodeGroup(b0, b1, b2)) == Some([b0, b1, b2])
  {
    DecodeEncodeGroup(b0, b1, b2);
    IndexOfSymbol((b1 % 16) * 4 + b2 / 64);
    IndexOfSymbol(b2 % 64);
  }

  /** A group followed by more text decodes group by group. */
  lemma DecodeGroupThenRest(head: string, tail: string)
    requires |head| == 4 && |tail| > 0
    ensures Decode(head + tail) ==
      match (DecodeGroup(head), Decode(tail))
      case (Some(h), Some(t)) => Some(h + t)
      case _ => None
  {
    var s := head + tail;
    assert s[..4] == head && s[4..] == tail;
  }

  /** The round trip for a final group of one or two bytes. */
  lemma DecodeEncodeFinal(bs: seq<byte>)
    requires 1 <= |bs| <= 2
    ensures Decode(Encode(bs)) == Some(bs)
  {
    assert Encode(bs) == FinalGroup(bs);
    if |bs| == 1 {
      assert bs == [bs[0]];
      DecodeEncodeOne(bs[0]);
    } else {
      assert bs == [bs[0], bs[1]];
      DecodeEncodeTwo(bs[0], bs[1]);
    }
  }

  /** The round trip for exactly three bytes. */
  lemma DecodeEncodeGroupOnly(bs: seq<byte>)
    requires |bs| == 3
    ensures Decode(Encode(bs)) == Some(bs)
  {
    assert bs[3..] == [];
    assert Encode(bs) == EncodeGroup(bs[0], bs[1], bs[2]);
    DecodeEncodeThree(bs[0], bs[1], bs[2]);
    assert bs == [bs[0], bs[1], bs[2]];
  }

  /** Decoding an encoding gives the bytes back (the round trip the stored mail
      password and the Basic credentials rely on). */
  lemma {:induction false} DecodeEncode(bs: seq<byte>)
    ensures Decode(Encode(bs)) == Some(bs)
    decreases |bs|
  {
    if |bs| == 0 {
    } else if |bs| < 3 {
      DecodeEncodeFinal(bs);
    } else if |bs| == 3 {
      DecodeEncodeGroupOnly(bs);
    } else {
      var head := EncodeGroup(bs[0], bs[1], bs[2]);
      var tail := Encode(bs[3..]);
      assert Encode(bs) == head + tail;
      DecodeEncodeGroup(bs[0], bs[1], bs[2]);
      DecodeEncode(bs[3..]);
      DecodeGroupThenRest(head, tail);
      assert [bs[0], bs[1], bs[2]] + bs[3..] == bs;
    }
  }

  /** Encoding is injective. */
  lemma EncodeInjective(a: seq<byte>, b: seq<byte>)
    requires Encode(a) == Encode(b)
    ensures a == b
  {
    DecodeEncode(a);
    DecodeEncode(b);
  }
}

=== FILE: basic_auth.dfy ===
/** The `Authorization` value of the HTTP Basic scheme (section 2 of RFC 7617):
    `"Basic "` followed by the Base64 encoding of the UTF-8 bytes of
    `user-id ":" password`. Both `ise_auth` functions build exactly this. */
module BasicAuth {
  import opened Common
  import Text
  import Utf8
  import Base64

  const Scheme: string := "Basic "

  /** The bytes the token carries: `f"{uname}:{pwd}".encode('utf-8')`. */
  function Credentials(uname: string, pwd: string): seq<byte> {
    Utf8.Encode(uname + ":" + pwd)
  }

  /** `ise_auth(uname, pwd)`. */
  function Token(uname: string, pwd: string): (t: string)
    ensures |t| == |Scheme| + 4 * ((|Credentials(uname, pwd)| + 2) / 3)
    ensures t[..|Scheme|] == Scheme
    ensures forall i :: |Scheme| <= i < |t| ==> Base64.IsSymbol(t[i]) || t[i] == Base64.Pad
    ensures Base64.Decode(t[|Scheme|..]) == Some(Credentials(uname, pwd))
  {
    var body := Base64.Encode(Credentials(uname, pwd));
    Base64.DecodeEncode(Credentials(uname, pwd));
    assert (Scheme + body)[|Scheme|..] == body;
    Scheme + body
  }

  /** How the receiving side reads a Basic token: the user-id is everything
      before the first colon of the decoded text, the password everything after. */
  function Parse(t: string): Option<(string, string)> {
    if |t| < |Scheme| || t[..|Scheme|] != Scheme then None
    else match Base64.Decode(t[|Scheme|..])
      case None => None
      case Some(bs) =>
        match Utf8.Decode(bs)
        case None => None
        case Some(text) =>
          var i := Text.IndexOf(text, ':');
          if i == |text| then None else Some((text[..i], text[i + 1..]))
  }

  /** A token built from a colon-free user name reads back as that user name and password. */
  lemma ParseToken(uname: string, pwd: string)
    requires forall i :: 0 <= i < |uname| ==> uname[i] != ':'
    ensures Parse(Token(uname, pwd)) == Some((uname, pwd))
  {
    var text := uname + ":" + pwd;
    Utf8.DecodeEncode(text);
    var i := Text.IndexOf(text, ':');
    assert text[|uname|] == ':';
    assert forall j :: 0 <= j < |uname| ==> text[j] == uname[j];
    assert i == |uname|;
    assert text[..i] == uname && text[i + 1..] == pwd;
  }

  /** Why the user name must be colon-free: these two credential pairs give the same token. */
  lemma ColonInUserNameIsAmbiguous()
    ensures Token("a:b", "c") == Token("a", "b:c")
  {
    assert "a:b" + ":" + "c" == "a" + ":" + "b:c";
  }
}

=== FILE: cisco_ise.dfy ===
/** The identity-store side (cisco_ise.py): the name-keyed cache of internal users,
    its bulk refresh, the per-user enrichment, the attribute update and the removal
    of users from the gateway group. The cache is an immutable map threaded through
    the operations; remote answers are parsed JSON documents given as parameters. */
module CiscoIse {
  import opened Common
  import opened Values
  import Retry

  /** `all_users`: internal-user records keyed by user name. */
  type Cache = map<string, Value>

  /** Where the bulk answer lists the internal users. */
  const ResourcesPath: seq<string> := ["SearchResult", "resources"]

  /** The resources of a bulk answer as the merge loop visits them, or None when
      reaching or iterating them raises. */
  function Resources(answer: Value): (r: Option<seq<Value>>)
    ensures r.Some? ==> Lookup(answer, ResourcesPath).Some?
    ensures forall items :: Lookup(answer, ResourcesPath) == Some(List(items)) ==> r == Some(items)
    ensures forall n :: Lookup(answer, ResourcesPath) == Some(Int(n)) ==> r.None?
    ensures Lookup(answer, ResourcesPath) == Some(Null) ==> r.None?
  {
    match Lookup(answer, ResourcesPath)
    case None => None
    case Some(resources) => Elements(resources)
  }

  /** How a bulk refresh ended: it merged every resource; every attempt raised (the
      function falls off its loop and returns None); or the answer was malformed and
      the merge raised part way. */
  datatype FetchStatus = Complete | NoAnswer | Broken

  datatype Fetch = Fetch(cache: Cache, status: FetchStatus)

  /** `ise_get_all_users`: up to three bulk requests; the first answer's resources are
      merged into the cache by name, in place, so a merge that raises part way keeps
      what it merged so far. */
  function GetAllUsers(cache: Cache, bulk: seq<Retry.Attempt<Value>>): (r: Fetch)
    requires |bulk| >= Retry.MaxAttempts
    ensures r.status == NoAnswer <==> Retry.AllRaised(bulk, Retry.MaxAttempts)
    ensures r.status == NoAnswer ==> r.cache == cache
    ensures cache.Keys <= r.cache.Keys
    ensures forall k: nat :: Retry.IsFirstReturned(bulk, Retry.MaxAttempts, k) ==>
      match Resources(bulk[k].value)
      case None => r == Fetch(cache, Broken)
      case Some(items) =>
        && r.cache == IndexByName(cache, items, Whole).index
        && (r.status == Complete <==> IndexByName(cache, items, Whole).complete)
  {
    var run := Retry.Run(bulk, Retry.MaxAttempts);
    assert forall k: nat :: Retry.IsFirstReturned(bulk, Retry.MaxAttempts, k) ==> run.attempts == k + 1 by {
      forall k: nat | Retry.IsFirstReturned(bulk, Retry.MaxAttempts, k) ensures run.attempts == k + 1 {
        Retry.RunStopsAtFirstReturned(bulk, Retry.MaxAttempts, k);
      }
    }
    match run.value
    case None => Fetch(cache, NoAnswer)
    case Some(answer) =>
      match Resources(answer)
      case None => Fetch(cache, Broken)
      case Some(items) =>
        var merged := IndexByName(cache, items, Whole);
        Fetch(merged.index, if merged.complete then Complete else Broken)
  }

  /** After a complete refresh every resource is cached under its name, the last of
      several resources with one name winning, and cached users the answer does not
      mention keep their records. */
  lemma RefreshCachesEveryResource(cache: Cache, bulk: seq<Retry.Attempt<Value>>, k: nat, i: nat, n: string)
    requires |bulk| >= Retry.MaxAttempts && Retry.IsFirstReturned(bulk, Retry.MaxAttempts, k)
    requires GetAllUsers(cache, bulk).status == Complete
    requires Resources(bulk[k].value).Some?
    ensures var items := Resources(bulk[k].value).value;
      i < |items| && (forall j :: i < j < |items| ==> Get(items[j], "name") != Get(items[i], "name")) ==>
        Get(items[i], "name") == Some(Str(Entry(items[i], Whole).value.0))
        && Entry(items[i], Whole).value.0 in GetAllUsers(cache, bulk).cache
        && GetAllUsers(cache, bulk).cache[Entry(items[i], Whole).value.0] == items[i]
    ensures var items := Resources(bulk[k].value).value;
      (forall j :: 0 <= j < |items| ==> Get(items[j], "name") != Some(Str(n))) && n in cache ==>
        n in GetAllUsers(cache, bulk).cache && GetAllUsers(cache, bulk).cache[n] == cache[n]
  {
    var items := Resources(bulk[k].value).value;
    assert IndexByName(cache, items, Whole).complete;
    if i < |items| && (forall j :: i < j < |items| ==> Get(items[j], "name") != Get(items[i], "name")) {
      IndexLastWins(cache, items, Whole, i);
    }
    if (forall j :: 0 <= j < |items| ==> Get(items[j], "name") != Some(Str(n))) && n in cache {
      IndexKeepsUnnamed(cache, items, Whole, n);
    }
  }

  /** The details request for a cached record: `user['id']` is read before the
      request and `user['name']` inside it, so a record lacking either fails, as does
      a request that raised or an answer without `InternalUser`. */
  function Details(record: Value, details: Retry.Attempt<Value>): (r: Option<Value>)
    ensures r.Some? <==> Get(record, "id").Some? && Get(record, "name").Some?
                         && details.Returned? && Get(details.value, "InternalUser").Some?
    ensures r.Some? ==> r == Get(details.value, "InternalUser")
  {
    if Get(record, "id").None? || Get(record, "name").None? then None
    else match details
      case Raised => None
      case Returned(answer) => Get(answer, "InternalUser")
  }

  /** The cache after an enrichment and what `ise_enrich_user` returns (None for
      Python's `None`). */
  datatype Enriched = Enriched(cache: Cache, user: Option<Value>)

  /** `ise_enrich_user` with the refresh outage handled: the bulk refresh runs only
      when the user is not cached, and a refresh in which every attempt raised leaves
      the cache as it was. On success the cached record is replaced by the details
      record. */
  function Enrich(cache: Cache, username: string, bulk: seq<Retry.Attempt<Value>>,
                  details: Retry.Attempt<Value>): (r: Enriched)
    requires |bulk| >= Retry.MaxAttempts
    ensures cache.Keys <= r.cache.Keys
    ensures r.user.Some? ==> details.Returned? && r.user == Get(details.value, "InternalUser")
    ensures r.user.Some? ==> username in r.cache && r.cache[username] == r.user.value
    ensures username in cache ==> r.cache.Keys == cache.Keys
    ensures username in cache ==> forall n :: n in cache && n != username ==> r.cache[n] == cache[n]
    ensures username in cache ==> (r.user.Some? <==> Details(cache[username], details).Some?)
    ensures Retry.AllRaised(bulk, Retry.MaxAttempts) && username !in cache ==> r == Enriched(cache, None)
  {
    var base :=
      if username in cache then Fetch(cache, Complete)
      else GetAllUsers(cache, bulk);
    if base.status != Complete || username !in base.cache then Enriched(base.cache, None)
    else match Details(base.cache[username], details)
      case None => Enriched(base.cache, None)
      case Some(record) => Enriched(base.cache[username := record], Some(record))
  }

  /** A cache hit never consults the bulk answers. */
  lemma CacheHitSkipsRefresh(cache: Cache, username: string, bulk1: seq<Retry.Attempt<Value>>,
                             bulk2: seq<Retry.Attempt<Value>>, details: Retry.Attempt<Value>)
    requires |bulk1| >= Retry.MaxAttempts && |bulk2| >= Retry.MaxAttempts
    requires username in cache
    ensures Enrich(cache, username, bulk1, details) == Enrich(cache, username, bulk2, details)
  {
  }

  /** `ise_enrich_user` as written: the global cache is `None` after a refresh in
      which every attempt raised, since the function assigns the refresh's `None`
      result to it, and every later call then raises `TypeError` on `username in
      all_users` and returns None. */
  function EnrichAsWritten(cache: Option<Cache>, username: string, bulk: seq<Retry.Attempt<Value>>,
                           details: Retry.Attempt<Value>): (r: (Option<Cache>, Option<Value>))
    requires |bulk| >= Retry.MaxAttempts
    ensures cache.None? ==> r == (None, None)
    ensures cache.Some? && username !in cache.value && Retry.AllRaised(bulk, Retry.MaxAttempts) ==> r == (None, None)
  {
    match cache
    case None => (None, None)
    case Some(c) =>
      if username !in c && Retry.AllRaised(bulk, Retry.MaxAttempts) then (None, None)
      else
        var e := Enrich(c, username, bulk, details);
        (Some(e.cache), e.user)
  }

  /** The two definitions differ only in the outage: anywhere else they agree. */
  lemma AsWrittenAgreesWithoutOutage(cache: Cache, username: string, bulk: seq<Retry.Attempt<Value>>,
                                     details: Retry.Attempt<Value>)
    requires |bulk| >= Retry.MaxAttempts
    requires username in cache || !Retry.AllRaised(bulk, Retry.MaxAttempts)
    ensures EnrichAsWritten(Some(cache), username, bulk, details)
         == (Some(Enrich(cache, username, bulk, details).cache), Enrich(cache, username, bulk, details).user)
  {
  }

  /** The outage as written: one lookup of an uncached user while the identity store
      is unreachable loses the whole cache, and a user who was cached, with a good
      details answer, can no longer be enriched. */
  lemma OutageLosesCacheAsWritten(cache: Cache, cached: string, missing: string,
                                  down: seq<Retry.Attempt<Value>>, bulk: seq<Retry.Attempt<Value>>,
                                  details: Retry.Attempt<Value>)
    requires |down| >= Retry.MaxAttempts && Retry.AllRaised(down, Retry.MaxAttempts)
    requires |bulk| >= Retry.MaxAttempts
    requires cached in cache && missing !in cache
    requires Details(cache[cached], details).Some?
    ensures var after := EnrichAsWritten(Some(cache), missing, down, details).0;
      after == None && EnrichAsWritten(after, cached, bulk, details).1 == None
  {
  }

  /** The outage handled: the failed lookup leaves the cache intact and the cached
      user is still enriched from it. */
  lemma OutageKeepsCache(cache: Cache, cached: string, missing: string,
                         down: seq<Retry.Attempt<Value>>, bulk: seq<Retry.Attempt<Value>>,
                         details: Retry.Attempt<Value>)
    requires |down| >= Retry.MaxAttempts && Retry.AllRaised(down, Retry.MaxAttempts)
    requires |bulk| >= Retry.MaxAttempts
    requires cached in cache && missing !in cache
    requires Details(cache[cached], details).Some?
    ensures var after := Enrich(cache, missing, down, details);
      && after == Enriched(cache, None)
      && Enrich(after.cache, cached, bulk, details).user == Details(cache[cached], details)
  {
  }

  const NamePath: seq<string> := ["InternalUser", "name"]
  const IdPath: seq<string> := ["InternalUser", "id"]
  const AttributesPath: seq<string> := ["InternalUser", "customAttributes"]

  /** The body of the update request: the user's name and id, and the custom
      attributes only when there are any. */
  function UpdatePayload(name: Value, id: Value, attrs: map<string, Value>): (p: Value)
    ensures p.Dict? && p.fields.Keys == {"InternalUser"}
    ensures Lookup(p, NamePath) == Some(name)
    ensures Lookup(p, IdPath) == Some(id)
    ensures Lookup(p, AttributesPath).Some? <==> |attrs| > 0
    ensures Lookup(p, AttributesPath).Some? ==> Lookup(p, AttributesPath).value == Dict(attrs)
    ensures p.fields["InternalUser"].Dict?
    ensures p.fields["InternalUser"].fields.Keys <= {"name", "id", "customAttributes"}
  {
    var user := map["name" := name, "id" := id];
    var fields := if |attrs| > 0 then user["customAttributes" := Dict(attrs)] else user;
    assert NamePath[1..] == ["name"] && IdPath[1..] == ["id"] && AttributesPath[1..] == ["customAttributes"];
    Dict(map["InternalUser" := Dict(fields)])
  }

  /** `all_users[u['name']]['customAttributes'] = custom_attributes`: None when the
      name is not a cached user name or the cached record is not a dict. */
  function WriteAttributes(cache: Cache, name: Value, attrs: map<string, Value>): (r: Option<Cache>)
    ensures r.Some? <==> name.Str? && name.s in cache && cache[name.s].Dict?
    ensures r.Some? ==> r.value.Keys == cache.Keys
    ensures r.Some? ==> Get(r.value[name.s], "customAttributes") == Some(Dict(attrs))
  {
    if !name.Str? then None
    else match SetPath(Dict(cache), [name.s, "customAttributes"], Dict(attrs))
      case None => None
      case Some(written) =>
        LookupShort(written, name.s, "customAttributes");
        Some(written.fields)
  }

  /** The write touches one field of one user: every other user, and every other
      field of that user, is as it was. */
  lemma WriteAttributesFrame(cache: Cache, name: string, attrs: map<string, Value>, other: string, field: string)
    requires WriteAttributes(cache, Str(name), attrs).Some?
    ensures other != name && other in cache ==> WriteAttributes(cache, Str(name), attrs).value[other] == cache[other]
    ensures field != "customAttributes" ==>
      Get(WriteAttributes(cache, Str(name), attrs).value[name], field) == Get(cache[name], field)
  {
    var p := [name, "customAttributes"];
    var w := SetPath(Dict(cache), p, Dict(attrs)).value;
    if other != name && other in cache {
      SetPathFrame(Dict(cache), p, Dict(attrs), [other]);
      LookupShort(w, other, field);
      LookupShort(Dict(cache), other, field);
    }
    if field != "customAttributes" {
      SetPathFrame(Dict(cache), p, Dict(attrs), [name, field]);
      LookupShort(w, name, field);
      LookupShort(Dict(cache), name, field);
    }
  }

  /** The body of an update response as `.json()` parses it: None when the body is
      not JSON (an HTML error page, an empty body), so that `.json()` raises. */
  type Reply = Option<Value>

  /** What `ise_update_user` ended in: `False` when the user could not be enriched;
      the response of the request; `None` when every attempt raised; an exception
      from a record without `id` or `name` or from the cache write; or an exception
      from the debug line's `res.json()`, raised after the cache write because the
      response body is not JSON. */
  datatype UpdateOutcome = NotFound | Updated(response: Value) | NoResponse | Failed | BodyRaised

  /** The cache afterwards, the outcome, and the request bodies sent, one per attempt. */
  datatype Update = Update(cache: Cache, outcome: UpdateOutcome, sent: seq<Value>)

  /** The request loop of `ise_update_user` for a user with the given name and id:
      up to three update requests with the same body. Once one answers, whatever its
      status, the attributes are written to the cache; the debug line then parses
      the response body, which raises when the body is not JSON. */
  function SendUpdate(cache: Cache, name: Value, id: Value, attrs: map<string, Value>,
                      put: seq<Retry.Attempt<Reply>>): (r: Update)
    requires |put| >= Retry.MaxAttempts
    ensures 1 <= |r.sent| <= Retry.MaxAttempts
    ensures forall p :: p in r.sent ==> p == UpdatePayload(name, id, attrs)
    ensures r.outcome != NotFound
    ensures r.outcome == NoResponse <==> Retry.AllRaised(put, Retry.MaxAttempts)
    ensures r.outcome == NoResponse ==> |r.sent| == Retry.MaxAttempts && r.cache == cache
    ensures r.outcome == Failed <==> !Retry.AllRaised(put, Retry.MaxAttempts) && WriteAttributes(cache, name, attrs).None?
    ensures r.outcome == Failed ==> r.cache == cache
    ensures r.outcome.Updated? || r.outcome == BodyRaised ==>
      && put[|r.sent| - 1].Returned?
      && Retry.AllRaised(put, |r.sent| - 1)
      && r.cache == WriteAttributes(cache, name, attrs).value
      && (r.outcome.Updated? ==> put[|r.sent| - 1].value == Some(r.outcome.response))
      && (r.outcome == BodyRaised <==> put[|r.sent| - 1].value.None?)
  {
    var body := UpdatePayload(name, id, attrs);
    var run := Retry.Run(put, Retry.MaxAttempts);
    var sent := seq(run.attempts, _ => body);
    match run.value
    case None => Update(cache, NoResponse, sent)
    case Some(reply) =>
      match WriteAttributes(cache, name, attrs)
      case None => Update(cache, Failed, sent)
      case Some(written) =>
        match reply
        case None => Update(written, BodyRaised, sent)
        case Some(response) => Update(written, Updated(response), sent)
  }

  /** A first answer whose body is not JSON still has the attributes written, and
      then raises out of the update instead of returning the response. */
  lemma NonJsonReplyRaisesAfterWrite(cache: Cache, name: Value, id: Value, attrs: map<string, Value>,
                                     put: seq<Retry.Attempt<Reply>>)
    requires |put| >= Retry.MaxAttempts && put[0] == Retry.Returned(None)
    requires WriteAttributes(cache, name, attrs).Some?
    ensures var r := SendUpdate(cache, name, id, attrs, put);
      && r.outcome == BodyRaised && |r.sent| == 1
      && r.cache == WriteAttributes(cache, name, attrs).value
  {
  }

  /** `ise_update_user`: `False` without any request when the user cannot be
      enriched; an exception before any request when the enriched record lacks `id`
      or `name`; otherwise the request loop on the enriched cache. */
  function UpdateUser(cache: Cache, username: string, attrs: map<string, Value>,
                      bulk: seq<Retry.Attempt<Value>>, details: Retry.Attempt<Value>,
                      put: seq<Retry.Attempt<Reply>>): (r: Update)
    requires |bulk| >= Retry.MaxAttempts && |put| >= Retry.MaxAttempts
    ensures var e := Enrich(cache, username, bulk, details);
      r.outcome == NotFound <==> e.user.None? || e.user.value == Null
    ensures var e := Enrich(cache, username, bulk, details);
      |r.sent| == 0 <==> e.user.None? || e.user.value == Null
                         || Get(e.user.value, "id").None? || Get(e.user.value, "name").None?
    ensures |r.sent| == 0 ==> r.cache == Enrich(cache, username, bulk, details).cache
    ensures |r.sent| == 0 && r.outcome != NotFound ==> r.outcome == Failed
    ensures var e := Enrich(cache, username, bulk, details);
      |r.sent| > 0 ==> r == SendUpdate(e.cache, Get(e.user.value, "name").value, Get(e.user.value, "id").value, attrs, put)
  {
    var e := Enrich(cache, username, bulk, details);
    if e.user.None? || e.user.value == Null then Update(e.cache, NotFound, [])
    else
      var u := e.user.value;
      match (Get(u, "id"), Get(u, "name"))
      case (Some(id), Some(name)) => SendUpdate(e.cache, name, id, attrs, put)
      case _ => Update(e.cache, Failed, [])
  }

  /** Once an update request answers and the write succeeds, the user's attributes
      are replaced wholesale, even with an empty map, whether or not the response body
      then parses; every other user is as it was. */
  lemma UpdateRecordsAttributes(cache: Cache, username: string, attrs: map<string, Value>,
                                bulk: seq<Retry.Attempt<Value>>, details: Retry.Attempt<Value>,
                                put: seq<Retry.Attempt<Reply>>, other: string)
    requires |bulk| >= Retry.MaxAttempts && |put| >= Retry.MaxAttempts
    requires UpdateUser(cache, username, attrs, bulk, details, put).outcome.Updated?
          || UpdateUser(cache, username, attrs, bulk, details, put).outcome == BodyRaised
    ensures var e := Enrich(cache, username, bulk, details);
      var name := Get(e.user.value, "name").value;
      var after := UpdateUser(cache, username, attrs, bulk, details, put).cache;
      && name.Str? && name.s in after
      && Get(after[name.s], "customAttributes") == Some(Dict(attrs))
      && (other != name.s && other in e.cache ==> other in after && after[other] == e.cache[other])
  {
    var e := Enrich(cache, username, bulk, details);
    var name := Get(e.user.value, "name").value;
    assert WriteAttributes(e.cache, name, attrs).Some?;
    WriteAttributesFrame(e.cache, name.s, attrs, other, "customAttributes");
  }

  /** The body of the request that moves a user back to the all-users group. */
  function RemovalPayload(user: string, group: Value): (p: Value)
    ensures p.Dict? && p.fields.Keys == {"InternalUser"}
    ensures Lookup(p, NamePath) == Some(Str(user))
    ensures Lookup(p, ["InternalUser", "identityGroups"]) == Some(group)
    ensures p.fields["InternalUser"].Dict? && p.fields["InternalUser"].fields.Keys == {"name", "identityGroups"}
  {
    var p := Dict(map["InternalUser" := Dict(map["name" := Str(user), "identityGroups" := group])]);
    assert NamePath[1..] == ["name"];
    assert ["InternalUser", "identityGroups"][1..] == ["identityGroups"];
    p
  }

  /** What the log reports for one user of the removal loop. */
  datatype Removal = Moved | NotMoved | Skipped

  /** `response.json()["UpdatedFieldsList"]["updatedField"][0]["field"]`, None when
      any step raises. */
  function FirstUpdatedField(answer: Value): (r: Option<Value>)
    ensures r.Some? ==> exists fields :: Lookup(answer, ["UpdatedFieldsList", "updatedField"]) == Some(List(fields))
                                         && |fields| > 0 && Get(fields[0], "field") == r
    ensures forall fields ::
      (Lookup(answer, ["UpdatedFieldsList", "updatedField"]) == Some(List(fields)) && |fields| > 0) ==>
      r == Get(fields[0], "field")
  {
    match Lookup(answer, ["UpdatedFieldsList", "updatedField"])
    case Some(List(fields)) => if |fields| > 0 then Get(fields[0], "field") else None
    case _ => None
  }

  /** One user of `ise_del_gp_users`: up to three requests; the first answer is read,
      and an answer without the updated-field list raises out of the whole loop. */
  function RemoveOne(answers: seq<Retry.Attempt<Value>>): (r: Result<Removal>)
    requires |answers| >= Retry.MaxAttempts
    ensures r == Ok(Skipped) <==> Retry.AllRaised(answers, Retry.MaxAttempts)
    ensures forall k: nat :: Retry.IsFirstReturned(answers, Retry.MaxAttempts, k) ==>
      match FirstUpdatedField(answers[k].value)
      case None => r == Err(Malformed)
      case Some(field) => r == Ok(if field == Str("identityGroups") then Moved else NotMoved)
  {
    var run := Retry.Run(answers, Retry.MaxAttempts);
    assert forall k: nat :: Retry.IsFirstReturned(answers, Retry.MaxAttempts, k) ==> run.attempts == k + 1 by {
      forall k: nat | Retry.IsFirstReturned(answers, Retry.MaxAttempts, k) ensures run.attempts == k + 1 {
        Retry.RunStopsAtFirstReturned(answers, Retry.MaxAttempts, k);
      }
    }
    match run.value
    case None => Ok(Skipped)
    case Some(answer) =>
      match FirstUpdatedField(answer)
      case None => Err(Malformed)
      case Some(field) => Ok(if field == Str("identityGroups") then Moved else NotMoved)
  }

  /** `ise_del_gp_users` over the delete list: answers[i] are the answers for the
      i-th user. Ok is the `True` it returns, with the per-user report; a malformed
      answer for any user makes the whole call raise, and users that stayed
      unreachable are skipped. */
  function RemoveFromGroup(answers: seq<seq<Retry.Attempt<Value>>>): (r: Result<seq<Removal>>)
    requires forall i :: 0 <= i < |answers| ==> |answers[i]| >= Retry.MaxAttempts
    ensures r.Ok? <==> forall i :: 0 <= i < |answers| ==> RemoveOne(answers[i]).Ok?
    ensures r.Ok? ==> |r.value| == |answers|
    ensures r.Ok? ==> forall i :: 0 <= i < |answers| ==> r.value[i] == RemoveOne(answers[i]).value
    ensures r.Err? ==> r.error == Malformed
    decreases |answers|
  {
    if |answers| == 0 then Ok([])
    else match RemoveOne(answers[0])
      case Err(e) => Err(e)
      case Ok(head) =>
        assert forall i :: 1 <= i < |answers| ==> answers[i] == answers[1..][i - 1];
        match RemoveFromGroup(answers[1..])
        case Err(e) => Err(e)
        case Ok(tail) => Ok([head] + tail)
  }
}

=== FILE: common.dfy ===
/** Small shared vocabulary: bytes, optional values and the two kinds of failure
    the gateway and identity-store helpers can end in. */
module Common {

  /** An octet, as held in a Python `bytes` object. */
  type byte = b: int | 0 <= b < 256

  datatype Option<+T> = None | Some(value: T)

  /** Why an operation raised instead of returning.
      - Unreachable: the remote side could not be reached (connection error, timeout,
        or the `UnboundLocalError` that follows a swallowed connection error);
      - Malformed: the answer did not have the expected shape (a `KeyError` or
        `TypeError` while indexing the parsed body, or an undecodable text). */
  datatype Error = Unreachable | Malformed

  datatype Result<+T> = Ok(value: T) | Err(error: Error)
}

=== FILE: config.dfy ===
/** The configuration tool (config.py): environment overrides of the loaded
    configuration, the y/n prompts of the interactive setup, and the four setup
    steps that rewrite credential fields. The configuration is the parsed YAML
    document; prompt answers, environment variables, the password hash and the
    gateway's keygen answers are parameters. */
module Config {
  import opened Common
  import opened Values
  import Text
  import Utf8
  import Base64
  import BasicAuth
  import Retry
  import PanFw
  import opened Prompt

  /** An environment variable that, when set, overwrites one configuration path. */
  datatype Override = Override(variable: string, path: seq<string>)

  /** The overrides of `get_config`, in the order it applies them. */
  const Overrides: seq<Override> := [
    Override("FW_IP", ["fw_ip"]),
    Override("FW_UNAME", ["fw_credentials", "username"]),
    Override("FW_PWD", ["fw_credentials", "password"]),
    Override("ISE_IP", ["ise_api_ip"]),
    Override("ISE_UNAME", ["ise_credentials", "username"]),
    Override("ISE_PWD", ["ise_credentials", "password"])
  ]

  /** Override paths are non-empty and none leads through another. */
  predicate Independent(ovs: seq<Override>) {
    && (forall i :: 0 <= i < |ovs| ==> |ovs[i].path| > 0)
    && (forall i, j :: 0 <= i < |ovs| && 0 <= j < |ovs| && i != j ==> !Related(ovs[i].path, ovs[j].path))
  }

  /** The overrides of `get_config` are independent. */
  lemma OverridesIndependent()
    ensures Independent(Overrides)
  {
    forall i, j | 0 <= i < |Overrides| && 0 <= j < |Overrides| && i != j
      ensures !Related(Overrides[i].path, Overrides[j].path)
    {
      var p := Overrides[i].path;
      var q := Overrides[j].path;
      assert p[0] != q[0] || p[1] != q[1];
      assert p[..1] != q[..1] || (|p| == 2 && |q| == 2 && p[..2] != q[..2]) || p[..1] == q[..1];
    }
  }

  /** The variables among ovs that env sets. */
  predicate Present(ovs: seq<Override>, env: map<string, string>, i: int)
    requires 0 <= i < |ovs|
  {
    ovs[i].variable in env
  }

  /** Applies the overrides in order: for each variable env sets, the assignment
      of its value (a string) at its path. Err when an assignment raises because
      an intermediate key is missing or not a dict. */
  function ApplyOverrides(config: Value, ovs: seq<Override>, env: map<string, string>): (r: Result<Value>)
    requires Independent(ovs)
    ensures r.Ok? <==> forall i :: 0 <= i < |ovs| && Present(ovs, env, i) ==> Settable(config, ovs[i].path)
    ensures r.Err? ==> r.error == Malformed
    ensures r.Ok? ==> forall i :: 0 <= i < |ovs| && Present(ovs, env, i) ==>
      Lookup(r.value, ovs[i].path) == Some(Str(env[ovs[i].variable]))
    ensures r.Ok? ==> forall q :: (forall i :: 0 <= i < |ovs| && Present(ovs, env, i) ==> !Related(ovs[i].path, q)) ==>
      Lookup(r.value, q) == Lookup(config, q)
    decreases |ovs|
  {
    if |ovs| == 0 then Ok(config)
    else
      var rest := ovs[1..];
      assert Independent(rest) by {
        assert forall i :: 0 <= i < |rest| ==> rest[i] == ovs[i + 1];
      }
      assert forall i :: 0 <= i < |rest| ==> rest[i] == ovs[i + 1];
      var o := ovs[0];
      if o.variable !in env then ApplyOverrides(config, rest, env)
      else match SetPath(config, o.path, Str(env[o.variable]))
        case None => Err(Malformed)
        case Some(next) =>
          var r := ApplyOverrides(next, rest, env);
          assert forall i :: 0 <= i < |rest| ==> Settable(next, rest[i].path) == Settable(config, rest[i].path) by {
            forall i | 0 <= i < |rest| ensures Settable(next, rest[i].path) == Settable(config, rest[i].path) {
              SetPathSettableIff(config, o.path, Str(env[o.variable]), rest[i].path);
            }
          }
          assert r.Ok? ==> Lookup(r.value, o.path) == Some(Str(env[o.variable])) by {
            if r.Ok? {
              assert forall i :: 0 <= i < |rest| && Present(rest, env, i) ==> !Related(rest[i].path, o.path);
            }
          }
          assert r.Ok? ==> forall q :: (forall i :: 0 <= i < |ovs| && Present(ovs, env, i) ==> !Related(ovs[i].path, q)) ==>
            Lookup(r.value, q) == Lookup(config, q) by {
            if r.Ok? {
              forall q | (forall i :: 0 <= i < |ovs| && Present(ovs, env, i) ==> !Related(ovs[i].path, q))
                ensures Lookup(r.value, q) == Lookup(config, q)
              {
                assert Present(ovs, env, 0);
                SetPathFrame(config, o.path, Str(env[o.variable]), q);
              }
            }
          }
          r
  }

  /** `get_config` after the YAML file has been read: the six overrides. */
  function GetConfig(config: Value, env: map<string, string>): (r: Result<Value>)
    ensures r.Ok? <==> forall i :: 0 <= i < |Overrides| && Present(Overrides, env, i) ==> Settable(config, Overrides[i].path)
    ensures r.Ok? ==> forall i :: 0 <= i < |Overrides| && Present(Overrides, env, i) ==>
      Lookup(r.value, Overrides[i].path) == Some(Str(env[Overrides[i].variable]))
    ensures r.Ok? ==> forall q :: (forall i :: 0 <= i < |Overrides| && Present(Overrides, env, i) ==> !Related(Overrides[i].path, q)) ==>
      Lookup(r.value, q) == Lookup(config, q)
  {
    OverridesIndependent();
    ApplyOverrides(config, Overrides, env)
  }

  /** With none of the six variables set, the configuration is returned as loaded. */
  lemma NoVariablesNoChange(config: Value, env: map<string, string>)
    requires forall i :: 0 <= i < |Overrides| ==> Overrides[i].variable !in env
    ensures GetConfig(config, env) == Ok(config)
  {
    var r := GetConfig(config, env);
    forall q ensures Lookup(r.value, q) == Lookup(config, q) {
      assert forall i :: 0 <= i < |Overrides| ==> !Present(Overrides, env, i);
    }
    assert Lookup(r.value, []) == Lookup(config, []);
  }

  /** A typical override: setting only `ISE_PWD` changes the ISE password and
      nothing else. */
  lemma IsePasswordOverride(config: Value, pwd: string, q: seq<string>)
    requires Settable(config, ["ise_credentials", "password"])
    requires !Related(["ise_credentials", "password"], q)
    ensures GetConfig(config, map["ISE_PWD" := pwd]).Ok?
    ensures Lookup(GetConfig(config, map["ISE_PWD" := pwd]).value, ["ise_credentials", "password"]) == Some(Str(pwd))
    ensures Lookup(GetConfig(config, map["ISE_PWD" := pwd]).value, q) == Lookup(config, q)
  {
    var env := map["ISE_PWD" := pwd];
    assert forall i :: 0 <= i < |Overrides| && Present(Overrides, env, i) ==> i == 5;
    assert Overrides[5].path == ["ise_credentials", "password"];
  }

  /** `config[key] = x` on the top level; Err when the document is not a dict. */
  function SetTop(config: Value, key: string, x: Value): (r: Result<Value>)
    ensures r.Ok? <==> config.Dict?
    ensures r.Ok? ==> r.value.Dict? && r.value.fields == config.fields[key := x]
  {
    if config.Dict? then Ok(Dict(config.fields[key := x])) else Err(Malformed)
  }

  /** The API-credentials step: the user name and the password's hash, computed
      outside this model, stored at the top level. */
  function ApiCredentials(config: Value, username: string, hash: string): (r: Result<Value>)
    ensures r.Ok? <==> config.Dict?
    ensures r.Ok? ==> r.value.Dict? && r.value.fields.Keys == config.fields.Keys + {"api_user", "api_password"}
    ensures r.Ok? ==> r.value.fields["api_user"] == Str(username) && r.value.fields["api_password"] == Str(hash)
    ensures r.Ok? ==> forall k :: k in config.fields && k != "api_user" && k != "api_password" ==>
      r.value.fields[k] == config.fields[k]
  {
    match SetTop(config, "api_user", Str(username))
    case Err(e) => Err(e)
    case Ok(c) => SetTop(c, "api_password", Str(hash))
  }

  /** `fw_key` of config.py: like the gateway module's, except that a first answer
      without a key is caught and reported as None, like total failure. */
  function FwKeyOrNone(answers: seq<Retry.Attempt<Value>>): (r: Option<Value>)
    requires |answers| >= Retry.MaxAttempts
    ensures Retry.AllRaised(answers, Retry.MaxAttempts) ==> r.None?
    ensures forall k: nat :: Retry.IsFirstReturned(answers, Retry.MaxAttempts, k) ==>
      r == Lookup(answers[k].value, PanFw.KeyPath)
  {
    var run := Retry.Run(answers, Retry.MaxAttempts);
    assert forall k: nat :: Retry.IsFirstReturned(answers, Retry.MaxAttempts, k) ==> run.attempts == k + 1 by {
      forall k: nat | Retry.IsFirstReturned(answers, Retry.MaxAttempts, k) ensures run.attempts == k + 1 {
        Retry.RunStopsAtFirstReturned(answers, Retry.MaxAttempts, k);
      }
    }
    match run.value
    case None => None
    case Some(doc) => Lookup(doc, PanFw.KeyPath)
  }

  /** The two `fw_key` functions find the same key; where the gateway module's
      raises, this one answers None. */
  lemma FwKeyVariantsAgree(answers: seq<Retry.Attempt<Value>>)
    requires |answers| >= Retry.MaxAttempts
    ensures FwKeyOrNone(answers) == match PanFw.FwKey(answers)
      case Ok(key) => key
      case Err(_) => None
  {
    if !Retry.AllRaised(answers, Retry.MaxAttempts) {
      var k := Retry.FirstReturned(answers, Retry.MaxAttempts).value;
      assert Retry.IsFirstReturned(answers, Retry.MaxAttempts, k);
    }
  }

  /** The key loop of the gateway-key step: it repeats until `fw_key` gives a truthy
      key. keys[i] is the result of the i-th round; None when no given round succeeds. */
  function FirstKey(keys: seq<Option<Value>>): (r: Option<nat>)
    ensures r.None? <==> forall i :: 0 <= i < |keys| ==> keys[i].None? || !Truthy(keys[i].value)
    ensures r.Some? ==> r.value < |keys| && keys[r.value].Some? && Truthy(keys[r.value].value)
    ensures r.Some? ==> forall i :: 0 <= i < r.value ==> keys[i].None? || !Truthy(keys[i].value)
    decreases |keys|
  {
    if |keys| == 0 then None
    else if keys[0].Some? && Truthy(keys[0].value) then Some(0)
    else match FirstKey(keys[1..])
      case None =>
        assert forall i :: 1 <= i < |keys| ==> keys[i] == keys[1..][i - 1];
        None
      case Some(k) =>
        assert forall i :: 1 <= i < |keys| ==> keys[i] == keys[1..][i - 1];
        Some(k + 1)
  }

  /** The gateway-key step once a key is in hand: the key stored in `fw_credentials`. */
  function FwKeyStep(config: Value, key: Value): (r: Result<Value>)
    ensures r.Ok? <==> Settable(config, ["fw_credentials", "api_key"])
    ensures r.Ok? ==> Lookup(r.value, ["fw_credentials", "api_key"]) == Some(key)
    ensures r.Ok? ==> forall q :: !Related(["fw_credentials", "api_key"], q) ==> Lookup(r.value, q) == Lookup(config, q)
  {
    var p := ["fw_credentials", "api_key"];
    match SetPath(config, p, key)
    case None => Err(Malformed)
    case Some(c) =>
      assert forall q :: !Related(p, q) ==> Lookup(c, q) == Lookup(config, q) by {
        forall q | !Related(p, q) ensures Lookup(c, q) == Lookup(config, q) {
          SetPathFrame(config, p, key, q);
        }
      }
      Ok(c)
  }

  /** The ISE-token step: the Basic token stored in `ise_credentials`, whose
      `username` and `password` are removed when present. */
  function IseTokenStep(config: Value, uname: string, pwd: string): (r: Result<Value>)
    ensures r.Ok? <==> config.Dict? && "ise_credentials" in config.fields && config.fields["ise_credentials"].Dict?
    ensures r.Ok? ==> r.value.Dict? && r.value.fields.Keys == config.fields.Keys
    ensures r.Ok? ==> forall k :: k in config.fields && k != "ise_credentials" ==> r.value.fields[k] == config.fields[k]
    ensures r.Ok? ==> var creds := r.value.fields["ise_credentials"];
      && creds.Dict?
      && creds.fields.Keys == config.fields["ise_credentials"].fields.Keys - {"username", "password"} + {"token"}
      && creds.fields["token"] == Str(BasicAuth.Token(uname, pwd))
      && forall k :: k in creds.fields && k != "token" ==> creds.fields[k] == config.fields["ise_credentials"].fields[k]
  {
    match Get(config, "ise_credentials")
    case Some(Dict(creds)) =>
      var updated := creds["token" := Str(BasicAuth.Token(uname, pwd))] - {"username", "password"};
      Ok(Dict(config.fields["ise_credentials" := Dict(updated)]))
    case _ => Err(Malformed)
  }

  /** The stored form of a mail password: the Base64 text of its UTF-8 bytes. */
  function StoredPassword(password: string): (s: string)
    ensures Base64.Decode(s).Some? && Utf8.Decode(Base64.Decode(s).value) == Some(password)
    ensures |s| == 0 <==> |password| == 0
  {
    var bytes := Utf8.Encode(password);
    Base64.DecodeEncode(bytes);
    Utf8.DecodeEncode(password);
    Base64.Encode(bytes)
  }

  /** The mail step: sender, login user (the sender when left empty) and the stored
      form of the password. */
  function MailStep(config: Value, mailFrom: string, mailUser: string, password: string): (r: Result<Value>)
    ensures r.Ok? <==> config.Dict?
    ensures r.Ok? ==> r.value.Dict? && r.value.fields.Keys == config.fields.Keys + {"mail_from", "mail_user", "mail_password"}
    ensures r.Ok? ==> r.value.fields["mail_from"] == Str(mailFrom)
    ensures r.Ok? ==> r.value.fields["mail_user"] == Str(if mailUser == "" then mailFrom else mailUser)
    ensures r.Ok? ==> r.value.fields["mail_password"] == Str(StoredPassword(password))
    ensures r.Ok? ==> forall k :: k in config.fields && k !in {"mail_from", "mail_user", "mail_password"} ==>
      r.value.fields[k] == config.fields[k]
  {
    var user := if |mailUser| == 0 then mailFrom else mailUser;
    match SetTop(config, "mail_from", Str(mailFrom))
    case Err(e) => Err(e)
    case Ok(c1) =>
      match SetTop(c1, "mail_user", Str(user))
      case Err(e) => Err(e)
      case Ok(c2) => SetTop(c2, "mail_password", Str(StoredPassword(password)))
  }

  /** The answers and inputs of one run of `initialize_credentials`. */
  datatype Inputs = Inputs(
    apiAnswers: seq<string>, apiUser: string, apiHash: string,
    fwAnswers: seq<string>, fwKeys: seq<Option<Value>>,
    iseAnswers: seq<string>, iseUser: string, isePassword: string,
    mailAnswers: seq<string>, mailFrom: string, mailUser: string, mailPassword: string)

  /** How a run ends: with the configuration and whether it changed (the file is
      then saved), still waiting for an answer or a key, or raising on a
      configuration of the wrong shape. */
  datatype Setup = Finished(config: Value, modified: bool) | Waiting | Failed

  /** The answers of one prompt loop reach the decision a. */
  predicate Decided(answers: seq<string>, a: Answer) {
    Ask(answers).Some? && Classify(answers[Ask(answers).value]) == a
  }

  /** One step: runs `step` when the answers decide Yes and skips it on No. A step
      answering Err(Unreachable) never got what it needs (the key loop is still
      asking); Err(Malformed) is an exception from a configuration of the wrong
      shape. */
  function Step(s: Setup, answers: seq<string>, step: Value -> Result<Value>): (r: Setup)
    ensures s.Finished? && Decided(answers, No) ==> r == s
    ensures r.Finished? ==> s.Finished? && (Decided(answers, Yes) || Decided(answers, No))
    ensures r.Finished? ==> r.modified == (s.modified || Decided(answers, Yes))
    ensures r.Finished? && Decided(answers, Yes) ==> step(s.config) == Ok(r.config)
    ensures s.Finished? && Ask(answers).None? ==> r == Waiting
  {
    match s
    case Finished(config, modified) =>
      (match Ask(answers)
       case None => Waiting
       case Some(k) =>
         if Classify(answers[k]) == No then s
         else match step(config)
           case Ok(c) => Finished(c, true)
           case Err(Unreachable) => Waiting
           case Err(Malformed) => Failed)
    case _ => s
  }

  /** The three fields the tool prints before its first prompt. */
  const ShownKeys: set<string> := {"fw_ip", "ise_api_ip", "smtp_server"}

  /** The configuration holds the fields printed before the first prompt; reading
      them raises otherwise. */
  predicate ShowsHeader(config: Value) {
    config.Dict? && ShownKeys <= config.fields.Keys
  }

  /** `initialize_credentials` after the configuration was read: the header reads
      `fw_ip`, `ise_api_ip` and `smtp_server` and raises without them; then the four
      steps run in order, and the file is saved exactly when some step ran. */
  function InitializeCredentials(config: Value, inp: Inputs): (r: Setup)
    ensures !ShowsHeader(config) ==> r == Failed
    ensures r.Finished? ==> ShowsHeader(config)
    ensures r.Finished? ==> (r.modified <==>
      Decided(inp.apiAnswers, Yes) || Decided(inp.fwAnswers, Yes) ||
      Decided(inp.iseAnswers, Yes) || Decided(inp.mailAnswers, Yes))
    ensures r.Finished? && !r.modified ==> r.config == config
  {
    var fwStep := (c: Value) =>
      match FirstKey(inp.fwKeys)
      case None => Err(Unreachable)
      case Some(k) => FwKeyStep(c, inp.fwKeys[k].value);
    var start := if ShowsHeader(config) then Finished(config, false) else Failed;
    var s1 := Step(start, inp.apiAnswers, (c: Value) => ApiCredentials(c, inp.apiUser, inp.apiHash));
    var s2 := Step(s1, inp.fwAnswers, fwStep);
    var s3 := Step(s2, inp.iseAnswers, (c: Value) => IseTokenStep(c, inp.iseUser, inp.isePassword));
    Step(s3, inp.mailAnswers, (c: Value) => MailStep(c, inp.mailFrom, inp.mailUser, inp.mailPassword))
  }
}

=== FILE: mail_body.dfy ===
/** The notification mail's HTML body (`mail_html_body` in mailsender.py): a fixed
    template with nine holes, filled with the user name and four fields of each of
    the two sessions. */
module MailBody {
  import opened Common
  import opened Values

  /** The page up to the user name: the document head with its style sheet, the title and the start of the notice. */
  const Head: string :=
      "\n"
    + "<html>\n"
    + "  <head>\n"
    + "    <meta charset=\"UTF-8\">\n"
    + "    <style>\n"
    + "      body {\n"
    + "        font-family: 'Trebuchet MS', 'Open Sans', Tahoma, sans-serif;\n"
    + "        background-color: #F8F0E3;\n"
    + "      }\n"
    + "\n"
    + "      h1 {\n"
    + "        text-align: center;\n"
    + "        font-size: 18px;\n"
    + "      }\n"
    + "\n"
    + "      .notification {\n"
    + "        background-color: #f5f5f5;\n"
    + "        border-radius: 10px;\n"
    + "        padding: 20px;\n"
    + "        text-align: center;\n"
    + "        margin: 20px;\n"
    + "        font-size: 13px;\n"
    + "        box-shadow: 0 4px 6px rgba(0, 0, 0, 0.1);\n"
    + "      }\n"
    + "\n"
    + "      table {\n"
    + "        border-collapse: separate;\n"
    + "        border: solid black 1px;\n"
    + "        border-radius: 6px;\n"
    + "        margin: 0 auto;\n"
    + "      }\n"
    + "      th {\n"
    + "        border: none;\n"
    + "        padding-left: 10px;\n"
    + "        padding-right: 10px;\n"
    + "      }\n"
    + "      td {\n"
    + "        padding-left: 10px;\n"
    + "        padding-right: 10px;\n"
    + "        border-top:  solid black 1px;\n"
    + "      }\n"
    + "    </style>\n"
    + "  </head>\n"
    + "\n"
    + "  <body>\n"
    + "    <h1>GP Duplicate session login attempt detected</h1>\n"
    + "    <div class=\"notification\">\n"
    + "      <p>\n"
    + "      A duplicate login attempt has been detected for username "

  /** From the user name to the first cell of the connected session's row. */
  const OldRowStart: string :=
      "\n"
    + "      </p>\n"
    + "      <h4>\n"
    + "      Original (Connected) Session Details\n"
    + "      </h4>\n"
    + "      <table>\n"
    + "        <thead>\n"
    + "          <tr>\n"
    + "            <th>Client Hostname</th>\n"
    + "            <th>Client OS</th>\n"
    + "            <th>Client IP</th>\n"
    + "            <th>Client IP Region/Country</th>\n"
    + "          </tr>\n"
    + "        </thead>\n"
    + "        <tr>\n"
    + "          <td>"

  /** Between two cells of a row. */
  const Cell: string := "</td>\n" + "          <td>"

  /** From the last cell of the connected session's row to the first cell of the denied attempt's row. */
  const NewRowStart: string :=
      "</td>\n"
    + "        </tr>\n"
    + "      </table>\n"
    + "            <h4>\n"
    + "      Denied Login Attempt Details\n"
    + "      </h4>\n"
    + "      <table>\n"
    + "        <thead>\n"
    + "          <tr>\n"
    + "            <th>Client Hostname</th>\n"
    + "            <th>Client OS</th>\n"
    + "            <th>Client IP</th>\n"
    + "            <th>Client IP Region/Country</th>\n"
    + "          </tr>\n"
    + "        </thead>\n"
    + "        <tr>\n"
    + "          <td>"

  /** After the last cell of the denied attempt's row. */
  const Tail: string :=
      "</td>\n"
    + "        </tr>\n"
    + "      </table>\n"
    + "    </div>\n"
    + "  </body>\n"
    + "</html>"

  /** The fixed text around and between the nine holes. */
  const Segments: seq<string> := [Head, OldRowStart, Cell, Cell, Cell, NewRowStart, Cell, Cell, Cell, Tail]

  /** The session fields shown in each row, in column order. */
  const SessionFields: seq<string> :=
    ["PaloAlto-Client-Hostname", "PaloAlto-Client-OS", "PaloAlto-Client-Source-IP", "PaloAlto-Client-Region"]

  /** Where the value of each hole is read in `data`, in the order of the holes:
      the user name, then the connected session's fields, then the denied attempt's. */
  const FieldPaths: seq<seq<string>> :=
    [["username"]]
    + [["oldsession", SessionFields[0]], ["oldsession", SessionFields[1]],
       ["oldsession", SessionFields[2]], ["oldsession", SessionFields[3]]]
    + [["newsession", SessionFields[0]], ["newsession", SessionFields[1]],
       ["newsession", SessionFields[2]], ["newsession", SessionFields[3]]]

  /** The shown value of each path, or None when one of the lookups raises. */
  function Rendered(data: Value, paths: seq<seq<string>>, show: Value -> string): (r: Option<seq<string>>)
    ensures r.Some? <==> forall i :: 0 <= i < |paths| ==> Lookup(data, paths[i]).Some?
    ensures r.Some? ==> |r.value| == |paths|
    ensures r.Some? ==> forall i :: 0 <= i < |paths| ==> r.value[i] == Render(Lookup(data, paths[i]).value, show)
    decreases |paths|
  {
    if |paths| == 0 then Some([])
    else match (Lookup(data, paths[0]), Rendered(data, paths[1..], show))
      case (Some(v), Some(rest)) =>
        assert forall i :: 1 <= i < |paths| ==> paths[i] == paths[1..][i - 1];
        Some([Render(v, show)] + rest)
      case (None, _) => None
      case (_, None) =>
        assert forall i :: 1 <= i < |paths| ==> paths[i] == paths[1..][i - 1];
        None
  }

  /** The text segs[0] vals[0] segs[1] ... vals[n-1] segs[n]. */
  function Fill(segs: seq<string>, vals: seq<string>): string
    requires |segs| == |vals| + 1
    decreases |vals|
  {
    if |vals| == 0 then segs[0]
    else segs[0] + vals[0] + Fill(segs[1..], vals[1..])
  }

  /** The filled text starts with the first segment. */
  lemma FillStartsWithSegment(segs: seq<string>, vals: seq<string>)
    requires |segs| == |vals| + 1
    ensures |segs[0]| <= |Fill(segs, vals)| && Fill(segs, vals)[..|segs[0]|] == segs[0]
  {
    if |vals| > 0 {
      assert Fill(segs, vals) == segs[0] + (vals[0] + Fill(segs[1..], vals[1..]));
    }
  }

  /** A slice of the second part of a + b is the same slice of b. */
  lemma SliceOfSecond(a: string, b: string, k: nat, n: nat)
    requires k + n <= |b|
    ensures (a + b)[|a| + k..|a| + k + n] == b[k..k + n]
  {
  }

  /** Where vals[i] starts in the filled text. */
  function Offset(segs: seq<string>, vals: seq<string>, i: nat): nat
    requires |segs| == |vals| + 1 && i < |vals|
    decreases i
  {
    if i == 0 then |segs[0]|
    else |segs[0]| + |vals[0]| + Offset(segs[1..], vals[1..], i - 1)
  }

  /** At its offset the filled text holds vals[i], followed by segs[i + 1]. */
  lemma {:induction false} FillAt(segs: seq<string>, vals: seq<string>, i: nat)
    requires |segs| == |vals| + 1 && i < |vals|
    ensures var k := Offset(segs, vals, i);
      && k + |vals[i]| + |segs[i + 1]| <= |Fill(segs, vals)|
      && Fill(segs, vals)[k..k + |vals[i]|] == vals[i]
      && Fill(segs, vals)[k + |vals[i]|..k + |vals[i]| + |segs[i + 1]|] == segs[i + 1]
    decreases i
  {
    var before := segs[0] + vals[0];
    var rest := Fill(segs[1..], vals[1..]);
    assert Fill(segs, vals) == before + rest;
    FillStartsWithSegment(segs[1..], vals[1..]);
    if i == 0 {
      assert (before + rest)[|segs[0]|..|before|] == vals[0];
      SliceOfSecond(before, rest, 0, |segs[1]|);
      assert rest[0..|segs[1]|] == segs[1];
    } else {
      var k := Offset(segs[1..], vals[1..], i - 1);
      FillAt(segs[1..], vals[1..], i - 1);
      SliceOfSecond(before, rest, k, |vals[i]|);
      SliceOfSecond(before, rest, k + |vals[i]|, |segs[i + 1]|);
    }
  }

  /** The holes are filled in order: each value ends, followed by its segment,
      where the next one starts. */
  lemma {:induction false} OffsetsFollow(segs: seq<string>, vals: seq<string>, i: nat)
    requires |segs| == |vals| + 1 && i + 1 < |vals|
    ensures Offset(segs, vals, i) + |vals[i]| + |segs[i + 1]| == Offset(segs, vals, i + 1)
    decreases i
  {
    if i > 0 {
      OffsetsFollow(segs[1..], vals[1..], i - 1);
    }
  }

  /** `mail_html_body(data)`: the template filled with the nine fields, or the
      `KeyError` or `TypeError` of a missing field. */
  function HtmlBody(data: Value, show: Value -> string): (r: Result<string>)
    ensures r.Ok? <==> forall i :: 0 <= i < |FieldPaths| ==> Lookup(data, FieldPaths[i]).Some?
    ensures r.Err? ==> r.error == Malformed
  {
    match Rendered(data, FieldPaths, show)
    case None => Err(Malformed)
    case Some(vals) => Ok(Fill(Segments, vals))
  }

  /** text holds v starting at position k. */
  predicate At(text: string, k: nat, v: string) {
    k + |v| <= |text| && text[k..k + |v|] == v
  }

  /** In a filled text, vals[i] sits at its offset, before vals[j] for every later j. */
  lemma PlacedInOrder(segs: seq<string>, vals: seq<string>, text: string, i: nat, j: nat)
    requires |segs| == |vals| + 1 && text == Fill(segs, vals)
    requires i < j < |vals|
    ensures Offset(segs, vals, i) + |vals[i]| <= Offset(segs, vals, j)
    ensures At(text, Offset(segs, vals, i), vals[i])
  {
    OffsetsIncrease(segs, vals, i, j);
    FillAt(segs, vals, i);
  }

  /** The body shows every field at its hole, in the order user name, connected
      session (hostname, OS, IP, region), denied attempt (same four). */
  lemma BodyPlacesFields(data: Value, show: Value -> string, i: nat, j: nat)
    requires HtmlBody(data, show).Ok?
    requires i < j < |FieldPaths|
    ensures var body := HtmlBody(data, show).value;
      var vals := Rendered(data, FieldPaths, show).value;
      && vals[i] == Render(Lookup(data, FieldPaths[i]).value, show)
      && Offset(Segments, vals, i) + |vals[i]| <= Offset(Segments, vals, j)
      && At(body, Offset(Segments, vals, i), vals[i])
  {
    var vals := Rendered(data, FieldPaths, show).value;
    var body := HtmlBody(data, show).value;
    PlacedInOrder(Segments, vals, body, i, j);
  }

  /** Offsets grow with the hole number. */
  lemma {:induction false} OffsetsIncrease(segs: seq<string>, vals: seq<string>, i: nat, j: nat)
    requires |segs| == |vals| + 1 && i < j < |vals|
    ensures Offset(segs, vals, i) + |vals[i]| <= Offset(segs, vals, j)
    decreases j - i
  {
    OffsetsFollow(segs, vals, i);
    if i + 1 < j {
      OffsetsIncrease(segs, vals, i + 1, j);
    }
  }
}

=== FILE: mail_sender.dfy ===
/** The mail sender (mailsender.py): the password it logs in with, the guard
    around the login, the `To` header, and the True/False outcome of `send_mail`
    over the steps connect, STARTTLS, login and delivery. The SMTP server is
    given by how each of its steps ends. */
module MailSender {
  import opened Common
  import Text
  import Utf8
  import Base64
  import Config

  /** The password `send_mail` logs in with: the stored text Base64-decoded, then
      read as UTF-8. None where either decoding raises. It is p exactly when the
      stored text decodes to the UTF-8 bytes of p. */
  function LoginPassword(stored: string): (r: Option<string>)
    ensures r.Some? ==> Base64.Decode(stored) == Some(Utf8.Encode(r.value))
    ensures forall p :: Base64.Decode(stored) == Some(Utf8.Encode(p)) ==> r == Some(p)
  {
    match Base64.Decode(stored)
    case None => None
    case Some(bytes) =>
      assert forall p :: bytes == Utf8.Encode(p) ==> Utf8.Decode(bytes) == Some(p) by {
        forall p | bytes == Utf8.Encode(p) ensures Utf8.Decode(bytes) == Some(p) {
          Utf8.DecodeEncode(p);
        }
      }
      Utf8.Decode(bytes)
  }

  /** Decoding what the configuration tool stored gives back exactly the password
      that was typed in. */
  lemma LoginRecoversStoredPassword(password: string)
    ensures LoginPassword(Config.StoredPassword(password)) == Some(password)
  {
    var stored := Config.StoredPassword(password);
    assert Base64.Decode(stored).Some?;
  }

  /** Two different passwords are never stored alike. */
  lemma StoredPasswordInjective(p: string, q: string)
    requires Config.StoredPassword(p) == Config.StoredPassword(q)
    ensures p == q
  {
    LoginRecoversStoredPassword(p);
    LoginRecoversStoredPassword(q);
  }

  /** `mail_password and len(mail_password.strip())`: a login is attempted exactly
      when the stored password holds something other than whitespace. */
  function WillLogIn(stored: string): (b: bool)
    ensures b <==> !Text.AllSpace(stored)
  {
    |stored| > 0 && |Text.Strip(stored)| > 0
  }

  /** The stored form of a password leads to a login exactly when the password is
      not empty: Base64 text holds no whitespace. */
  lemma StoredPasswordLogsIn(password: string)
    ensures WillLogIn(Config.StoredPassword(password)) <==> |password| > 0
  {
    var stored := Config.StoredPassword(password);
    if |password| > 0 {
      var bytes := Utf8.Encode(password);
      assert stored == Base64.Encode(bytes);
      assert |stored| >= 4;
      assert Base64.IsSymbol(stored[0]);
      assert !Text.IsSpace(stored[0]);
    }
  }

  /** The `mail_to` argument: one address, or a list of them. */
  datatype Recipients = Address(addr: string) | Addresses(addrs: seq<string>)

  /** The `To` header: the address itself, or the list joined with `", "`. */
  function ToHeader(to: Recipients): (h: string)
    ensures to.Address? ==> h == to.addr
    ensures to.Addresses? && |to.addrs| == 1 ==> h == to.addrs[0]
  {
    match to
    case Address(a) => a
    case Addresses(addrs) => Text.Join(addrs, ", ")
  }

  /** The header lists the recipients in order: cutting it at its separators gives
      them back, as long as no address contains a comma. */
  lemma ToHeaderLists(to: Recipients)
    requires to.Address? ==> ',' !in to.addr
    requires to.Addresses? ==> |to.addrs| > 0 && forall i :: 0 <= i < |to.addrs| ==> ',' !in to.addrs[i]
    ensures Text.SplitCommaSpace(ToHeader(to)) == if to.Address? then [to.addr] else to.addrs
  {
    match to
    case Address(a) => Text.SplitJoin([a]);
    case Addresses(addrs) => Text.SplitJoin(addrs);
  }

  /** The steps of `send_mail` that talk to the server. */
  datatype Stage = Connect | StartTls | Login | Deliver

  /** How each step ends on a given server: whether it connects, whether STARTTLS
      succeeds, which passwords it accepts for the login user, and whether it
      takes the message. */
  datatype Server = Server(connects: bool, tlsOk: bool, accepts: string -> bool, delivers: bool)

  /** Whether a step succeeds on srv. The login raises already when the stored
      password does not decode. */
  function Succeeds(srv: Server, stored: string): Stage -> bool {
    (st: Stage) =>
      match st
      case Connect => srv.connects
      case StartTls => srv.tlsOk
      case Login =>
        (match LoginPassword(stored)
         case None => false
         case Some(p) => srv.accepts(p))
      case Deliver => srv.delivers
  }

  /** The steps `send_mail` means to take: STARTTLS only for the server type `tls`
      (`cleartext` and any other value skip it), the login only behind its guard. */
  function Plan(serverType: string, stored: string): (p: seq<Stage>)
    ensures 2 <= |p| <= 4 && p[|p| - 1] == Deliver
    ensures forall i, j :: 0 <= i < j < |p| ==> p[i] != p[j]
  {
    [Connect] + (if serverType == "tls" then [StartTls] else [])
      + (if WillLogIn(stored) then [Login] else []) + [Deliver]
  }

  /** What `send_mail` ends in (True, False, or an exception) and which steps it took. */
  datatype Outcome = Outcome(returned: Result<bool>, stages: seq<Stage>)

  /** `send_mail`, where ok tells how each step ends: the steps in order, stopping
      at the first that raises. A failing step makes it return False, except a
      login whose password does not decode: the handler decodes the password once
      more for its debug line, and that raises out of `send_mail`. `ok(Login)`
      covers decoding the stored password as well as the server's answer, so an ok
      that accepts the login of an undecodable password stands for no real server;
      `Succeeds` builds the ok of a given server. */
  function SendMail(ok: Stage -> bool, serverType: string, stored: string): (r: Outcome)
    ensures 1 <= |r.stages| <= |Plan(serverType, stored)|
    ensures r.stages == Plan(serverType, stored)[..|r.stages|]
    ensures forall i :: 0 <= i < |r.stages| - 1 ==> ok(r.stages[i])
    ensures r.returned == Ok(true) <==> forall i :: 0 <= i < |Plan(serverType, stored)| ==> ok(Plan(serverType, stored)[i])
    ensures r.returned == Ok(true) ==> r.stages == Plan(serverType, stored)
    ensures r.returned != Ok(true) ==> !ok(r.stages[|r.stages| - 1])
    ensures r.returned.Err? <==> r.stages[|r.stages| - 1] == Login && !ok(Login) && LoginPassword(stored).None?
    ensures r.returned.Err? ==> r.returned.error == Malformed
  {
    var login := WillLogIn(stored);
    var plan := Plan(serverType, stored);
    if !ok(Connect) then
      assert plan[0] == Connect;
      Outcome(Ok(false), [Connect])
    else if serverType == "tls" && !ok(StartTls) then
      assert plan[..2] == [Connect, StartTls];
      assert plan[1] == StartTls;
      Outcome(Ok(false), [Connect, StartTls])
    else
      var secured := [Connect] + (if serverType == "tls" then [StartTls] else []);
      assert forall i :: 0 <= i < |secured| ==> ok(secured[i]);
      if login && !ok(Login) then
        assert plan[..|secured| + 1] == secured + [Login];
        assert plan[|secured|] == Login;
        Outcome(if LoginPassword(stored).None? then Err(Malformed) else Ok(false), secured + [Login])
      else
        var loggedIn := secured + (if login then [Login] else []);
        assert plan == loggedIn + [Deliver];
        assert forall i :: 0 <= i < |loggedIn| ==> ok(loggedIn[i]);
        assert forall i :: 0 <= i < |loggedIn| ==> plan[i] == loggedIn[i];
        assert plan[|loggedIn|] == Deliver;
        Outcome(Ok(ok(Deliver)), plan)
  }

  /** What the plan holds: STARTTLS only for `tls`, the login only behind its guard,
      and where each step sits. */
  lemma PlanShape(serverType: string, stored: string)
    ensures var plan := Plan(serverType, stored);
      && plan[0] == Connect
      && (StartTls in plan <==> serverType == "tls")
      && (Login in plan <==> WillLogIn(stored))
      && (serverType == "tls" ==> plan[1] == StartTls)
      && (WillLogIn(stored) ==> plan[if serverType == "tls" then 2 else 1] == Login)
  {
  }

  /** STARTTLS is attempted only for the server type `tls`, and a login only behind
      a password that is not blank. */
  lemma OptionalSteps(ok: Stage -> bool, serverType: string, stored: string)
    ensures StartTls in SendMail(ok, serverType, stored).stages ==> serverType == "tls"
    ensures Login in SendMail(ok, serverType, stored).stages ==> !Text.AllSpace(stored)
  {
    var stages := SendMail(ok, serverType, stored).stages;
    var plan := Plan(serverType, stored);
    PlanShape(serverType, stored);
    assert stages == plan[..|stages|];
    assert forall st :: st in stages ==> st in plan;
  }

  /** A login that fails on a password that does not decode ends `send_mail` with an
      exception, once the login is reached. */
  lemma FailedLoginRaises(ok: Stage -> bool, serverType: string, stored: string)
    requires WillLogIn(stored) && LoginPassword(stored).None? && !ok(Login)
    ensures SendMail(ok, serverType, stored).returned != Ok(true)
    ensures SendMail(ok, serverType, stored).returned.Err? <==> ok(Connect) && (serverType == "tls" ==> ok(StartTls))
  {
    var plan := Plan(serverType, stored);
    var r := SendMail(ok, serverType, stored);
    PlanShape(serverType, stored);
    var k := if serverType == "tls" then 2 else 1;
    if ok(Connect) && (serverType == "tls" ==> ok(StartTls)) {
      assert forall i :: 0 <= i < k ==> ok(plan[i]);
      assert r.stages[|r.stages| - 1] == Login by {
        assert |r.stages| - 1 >= k;
        assert r.stages[k] == plan[k];
      }
    } else {
      assert r.stages[|r.stages| - 1] != Login by {
        assert |r.stages| - 1 < k;
      }
    }
  }

  /** A stored password that does not decode never lets the mail go out, and it
      makes `send_mail` raise once the login is reached, that is, once the server
      answered and, for `tls`, STARTTLS went through. */
  lemma UndecodablePasswordRaises(srv: Server, serverType: string, stored: string)
    requires WillLogIn(stored) && LoginPassword(stored).None?
    ensures SendMail(Succeeds(srv, stored), serverType, stored).returned != Ok(true)
    ensures SendMail(Succeeds(srv, stored), serverType, stored).returned.Err? <==>
      srv.connects && (serverType == "tls" ==> srv.tlsOk)
  {
    var ok := Succeeds(srv, stored);
    assert ok(Connect) == srv.connects && ok(StartTls) == srv.tlsOk && !ok(Login);
    FailedLoginRaises(ok, serverType, stored);
  }
}

=== FILE: pan_fw.dfy ===
/** The gateway side (pan_fw.py): the API key request and the list of users
    connected to the GlobalProtect gateway, starting from the document the XML
    parser made of each answer. */
module PanFw {
  import opened Common
  import opened Values
  import Retry

  /** Where the keygen answer holds the key. */
  const KeyPath: seq<string> := ["response", "result", "key"]

  /** Where the session-list answer holds the sessions. */
  const ResultPath: seq<string> := ["response", "result"]

  /** The four fields of a session record, as `fw_gp_ext` names them. */
  const SessionKeys: set<string> := {"Username", "Client-Hostname", "Client-OS", "Client-Source-IP"}

  /** `fw_key`: up to three keygen requests; answers[i] is how attempt i+1 ended.
      Ok(Some(key)) is the key of the first answer, Ok(None) is the `False` returned
      when every attempt raised, and Err(Malformed) is the `KeyError` or `TypeError`
      raised when the first answer has no key: it is not retried. */
  function FwKey(answers: seq<Retry.Attempt<Value>>): (r: Result<Option<Value>>)
    requires |answers| >= Retry.MaxAttempts
    ensures r == Ok(None) <==> Retry.AllRaised(answers, Retry.MaxAttempts)
    ensures forall k: nat :: Retry.IsFirstReturned(answers, Retry.MaxAttempts, k) ==>
      r == match Lookup(answers[k].value, KeyPath)
           case Some(key) => Ok(Some(key))
           case None => Err(Malformed)
  {
    var run := Retry.Run(answers, Retry.MaxAttempts);
    assert forall k: nat :: Retry.IsFirstReturned(answers, Retry.MaxAttempts, k) ==> run.attempts == k + 1 by {
      forall k: nat | Retry.IsFirstReturned(answers, Retry.MaxAttempts, k) ensures run.attempts == k + 1 {
        Retry.RunStopsAtFirstReturned(answers, Retry.MaxAttempts, k);
      }
    }
    match run.value
    case None => Ok(None)
    case Some(doc) =>
      match Lookup(doc, KeyPath)
      case Some(key) => Ok(Some(key))
      case None => Err(Malformed)
  }

  /** The record built from one session entry, or None when the entry is not a
      dict holding `username`, `computer`, `client` and `client-ip`. */
  function Record(e: Value): (r: Option<map<string, Value>>)
    ensures r.Some? <==> e.Dict? && "username" in e.fields && "computer" in e.fields
                         && "client" in e.fields && "client-ip" in e.fields
    ensures r.Some? ==> r.value.Keys == SessionKeys
    ensures r.Some? ==> && r.value["Username"] == e.fields["username"]
                        && r.value["Client-Hostname"] == e.fields["computer"]
                        && r.value["Client-OS"] == e.fields["client"]
                        && r.value["Client-Source-IP"] == e.fields["client-ip"]
  {
    match (Get(e, "username"), Get(e, "computer"), Get(e, "client"), Get(e, "client-ip"))
    case (Some(u), Some(h), Some(os), Some(ip)) =>
      Some(map["Username" := u, "Client-Hostname" := h, "Client-OS" := os, "Client-Source-IP" := ip])
    case _ => None
  }

  /** One record per entry, in entry order, or None when some entry is malformed. */
  function Records(entries: seq<Value>): (r: Option<seq<map<string, Value>>>)
    ensures r.Some? <==> forall i :: 0 <= i < |entries| ==> Record(entries[i]).Some?
    ensures r.Some? ==> |r.value| == |entries|
    ensures r.Some? ==> forall i :: 0 <= i < |entries| ==> r.value[i] == Record(entries[i]).value
    decreases |entries|
  {
    if |entries| == 0 then Some([])
    else match (Record(entries[0]), Records(entries[1..]))
      case (Some(head), Some(tail)) =>
        assert forall i :: 1 <= i < |entries| ==> entries[i] == entries[1..][i - 1];
        Some([head] + tail)
      case (None, _) => None
      case (_, None) =>
        assert forall i :: 1 <= i < |entries| ==> entries[i] == entries[1..][i - 1];
        None
  }

  /** The entries the loop of `fw_gp_ext` visits for a truthy `result`: its `entry`
      field, a lone dict wrapped into a one-element list. */
  function Entries(result: Value): (r: Option<seq<Value>>)
    ensures Get(result, "entry").None? ==> r.None?
    ensures Get(result, "entry").Some? && Get(result, "entry").value.Dict? ==> r == Some([Get(result, "entry").value])
    ensures Get(result, "entry").Some? && Get(result, "entry").value.List? ==> r == Some(Get(result, "entry").value.items)
    ensures r.Some? ==> Get(result, "entry").Some?
  {
    match Get(result, "entry")
    case None => None
    case Some(entry) => if entry.Dict? then Some([entry]) else Elements(entry)
  }

  /** `fw_gp_ext` on the answer to the session-list request. A request that raised
      becomes the `ValueError` of the source (Err(Unreachable)): it is never an
      empty list. */
  function FwGpExt(answer: Retry.Attempt<Value>): (r: Result<seq<map<string, Value>>>)
    ensures answer.Raised? <==> r == Err(Unreachable)
    ensures r.Ok? ==> forall i :: 0 <= i < |r.value| ==> r.value[i].Keys == SessionKeys
  {
    match answer
    case Raised => Err(Unreachable)
    case Returned(doc) =>
      match Lookup(doc, ResultPath)
      case None => Err(Malformed)
      case Some(result) =>
        if !Truthy(result) then Ok([])
        else match Entries(result)
          case None => Err(Malformed)
          case Some(entries) =>
            match Records(entries)
            case None => Err(Malformed)
            case Some(records) => Ok(records)
  }

  /** No connected users: a falsy `result` yields an empty list. */
  lemma FalsyResultHasNoUsers(doc: Value, result: Value)
    requires Lookup(doc, ResultPath) == Some(result) && !Truthy(result)
    ensures FwGpExt(Retry.Returned(doc)) == Ok([])
  {
  }

  /** A lone session, parsed as a dict rather than a list, yields exactly one record. */
  lemma LoneEntryIsOneRecord(doc: Value, result: Value, entry: Value)
    requires Lookup(doc, ResultPath) == Some(result)
    requires Get(result, "entry") == Some(entry) && entry.Dict?
    requires Record(entry).Some?
    ensures FwGpExt(Retry.Returned(doc)) == Ok([Record(entry).value])
  {
    assert Truthy(result) by { assert "entry" in result.fields; }
    assert Entries(result) == Some([entry]);
    var records := Records([entry]).value;
    assert records == [Record(entry).value] by { assert |records| == 1; }
  }

  /** A list of sessions yields one record per session, in order; a session whose
      entry lacks a field makes the whole call raise. */
  lemma EntryListIsRecordList(doc: Value, result: Value, items: seq<Value>)
    requires Lookup(doc, ResultPath) == Some(result)
    requires Get(result, "entry") == Some(List(items))
    ensures FwGpExt(Retry.Returned(doc)).Ok? <==> forall i :: 0 <= i < |items| ==> Record(items[i]).Some?
    ensures FwGpExt(Retry.Returned(doc)).Ok? ==>
      && |FwGpExt(Retry.Returned(doc)).value| == |items|
      && forall i :: 0 <= i < |items| ==> FwGpExt(Retry.Returned(doc)).value[i] == Record(items[i]).value
  {
    assert Truthy(result) by { assert "entry" in result.fields; }
    assert Entries(result) == Some(items);
    assert FwGpExt(Retry.Returned(doc)) == match Records(items)
      case None => Err(Malformed)
      case Some(records) => Ok(records);
  }

  /** `fw_gp_lst`: the `Username` of every record, same length and order; None when
      a record has no `Username` (the `KeyError` of the source). */
  function FwGpLst(records: seq<map<string, Value>>): (r: Result<seq<Value>>)
    ensures r.Ok? <==> forall i :: 0 <= i < |records| ==> "Username" in records[i]
    ensures r.Err? ==> r.error == Malformed
    ensures r.Ok? ==> |r.value| == |records|
    ensures r.Ok? ==> forall i :: 0 <= i < |records| ==> r.value[i] == records[i]["Username"]
    decreases |records|
  {
    if |records| == 0 then Ok([])
    else if "Username" !in records[0] then Err(Malformed)
    else match FwGpLst(records[1..])
      case Ok(tail) =>
        assert forall i :: 1 <= i < |records| ==> records[i] == records[1..][i - 1];
        Ok([records[0]["Username"]] + tail)
      case Err(e) =>
        assert forall i :: 1 <= i < |records| ==> records[i] == records[1..][i - 1];
        Err(e)
  }

  /** The user names the sync compares: one per session, in session order, so a user
      connected twice appears twice. */
  lemma SessionUserNames(answer: Retry.Attempt<Value>)
    requires FwGpExt(answer).Ok?
    ensures FwGpLst(FwGpExt(answer).value).Ok?
    ensures |FwGpLst(FwGpExt(answer).value).value| == |FwGpExt(answer).value|
    ensures forall i :: 0 <= i < |FwGpExt(answer).value| ==>
      FwGpLst(FwGpExt(answer).value).value[i] == FwGpExt(answer).value[i]["Username"]
  {
  }

  /** Two sessions of one user are two records and two names: nothing is merged. */
  lemma DuplicateSessionsKept(doc: Value, result: Value, s1: Value, s2: Value)
    requires Lookup(doc, ResultPath) == Some(result)
    requires Get(result, "entry") == Some(List([s1, s2]))
    requires Record(s1).Some? && Record(s2).Some?
    requires s1.fields["username"] == s2.fields["username"]
    ensures FwGpExt(Retry.Returned(doc)).Ok?
    ensures FwGpLst(FwGpExt(Retry.Returned(doc)).value) == Ok([s1.fields["username"], s1.fields["username"]])
  {
    EntryListIsRecordList(doc, result, [s1, s2]);
    var records := FwGpExt(Retry.Returned(doc)).value;
    var names := FwGpLst(records).value;
    assert names[0] == Record(s1).value["Username"] == s1.fields["username"];
    assert names[1] == Record(s2).value["Username"] == s1.fields["username"];
    assert names == [s1.fields["username"], s1.fields["username"]];
  }
}

=== FILE: prompt.dfy ===
/** The y/n prompts of the configuration tool (config.py). Each prompt reads
    answers until one of them decides. */
module Prompt {
  import opened Common
  import Text

  /** What one y/n answer decides. */
  datatype Answer = Yes | No | Again

  /** The decision on an answer that is already trimmed. */
  function Decide(s: string): Answer {
    if |s| > 0 && (s[0] == 'y' || s == "Y") then Yes
    else if s == "" || s[0] == 'n' || s == "N" then No
    else Again
  }

  /** The y/n test of config.py on a raw answer: after `strip()`, an answer starting
      with `y`, or equal to `Y`, is Yes (checked first); an empty one, one starting
      with `n`, or one equal to `N` is No; anything else asks again. */
  function Classify(flag: string): (a: Answer)
    ensures Text.AllSpace(flag) ==> a == No
    ensures var s := Text.Strip(flag);
      a == Yes <==> |s| > 0 && (s[0] == 'y' || s == "Y")
    ensures var s := Text.Strip(flag);
      a == No <==> !(|s| > 0 && (s[0] == 'y' || s == "Y")) && (s == "" || s[0] == 'n' || s == "N")
    ensures var s := Text.Strip(flag);
      a == Again <==> |s| > 0 && s[0] != 'y' && s[0] != 'n' && s != "Y" && s != "N"
  {
    Decide(Text.Strip(flag))
  }

  /** The first prompt's guard groups `len(s) and (s[0] == "y" or s == "Y")`, the
      later ones `len(s) and s[0] == "y" or s == "Y"`: they accept the same answers. */
  lemma YesGuardsAgree(s: string)
    ensures (|s| > 0 && (s[0] == 'y' || s == "Y")) <==> ((|s| > 0 && s[0] == 'y') || s == "Y")
  {
  }

  /** Lower-case words and the single capitals decide, whatever whitespace surrounds them. */
  lemma DecidingWords(flag: string)
    ensures Text.Strip(flag) == "yes" || Text.Strip(flag) == "Y" ==> Classify(flag) == Yes
    ensures Text.Strip(flag) == "no" || Text.Strip(flag) == "N" ==> Classify(flag) == No
  {
  }

  /** The test is exact: an answer reading `Yes` or `No` decides nothing and the
      prompt asks again. */
  lemma CapitalisedWordsAskAgain(flag: string)
    ensures Text.Strip(flag) == "Yes" || Text.Strip(flag) == "No" ==> Classify(flag) == Again
  {
  }

  /** The bare answer `Yes` in particular asks again. */
  lemma BareYesAsksAgain()
    ensures Classify("Yes") == Again
  {
    Text.StripUnpadded("Yes");
    CapitalisedWordsAskAgain("Yes");
  }

  /** Surrounding whitespace does not change the decision. */
  lemma ClassifyIgnoresPadding(flag: string, pad1: string, pad2: string)
    requires Text.AllSpace(pad1) && Text.AllSpace(pad2)
    ensures Classify(pad1 + flag + pad2) == Classify(flag)
  {
    Text.StripPadded(flag, pad1, pad2);
  }

  /** The first decision in ds that is not Again, or None when there is none. */
  function FirstDecision(ds: seq<Answer>): (r: Option<nat>)
    ensures r.None? <==> forall i :: 0 <= i < |ds| ==> ds[i] == Again
    ensures r.Some? ==> r.value < |ds| && ds[r.value] != Again
    ensures r.Some? ==> forall i :: 0 <= i < r.value ==> ds[i] == Again
    decreases |ds|
  {
    if |ds| == 0 then None
    else if ds[0] != Again then Some(0)
    else match FirstDecision(ds[1..])
      case None =>
        assert forall i :: 1 <= i < |ds| ==> ds[i] == ds[1..][i - 1];
        None
      case Some(k) =>
        assert forall i :: 1 <= i < |ds| ==> ds[i] == ds[1..][i - 1];
        Some(k + 1)
  }

  /** One prompt loop: the position of the first answer that decides, or None when
      every answer given so far asks again (the loop is still waiting). */
  function Ask(answers: seq<string>): (r: Option<nat>)
    ensures r.None? <==> forall i :: 0 <= i < |answers| ==> Classify(answers[i]) == Again
    ensures r.Some? ==> r.value < |answers| && Classify(answers[r.value]) != Again
    ensures r.Some? ==> forall i :: 0 <= i < r.value ==> Classify(answers[i]) == Again
  {
    var ds := seq(|answers|, i requires 0 <= i < |answers| => Classify(answers[i]));
    assert forall i :: 0 <= i < |answers| ==> ds[i] == Classify(answers[i]);
    FirstDecision(ds)
  }
}

=== FILE: reconcile.dfy ===
/** The reconciliation diff of the sync script (main.py): which members of the
    identity-store group to remove because the gateway no longer reports them,
    and which gateway users to add because the group lacks them. Names are
    compared with `==` only: no case folding and no trimming. */
module Reconcile {

  /** `list(filter(lambda _: _ not in excluded, s))`: the elements of s that do not
      occur in excluded, in their original order and with their repetitions. */
  function Without<T(==,!new)>(s: seq<T>, excluded: seq<T>): (r: seq<T>)
    ensures forall x :: x in r <==> x in s && x !in excluded
    ensures forall x :: multiset(r)[x] == if x in excluded then 0 else multiset(s)[x]
    decreases |s|
  {
    if |s| == 0 then []
    else
      var rest := Without(s[1..], excluded);
      assert s == [s[0]] + s[1..];
      if s[0] in excluded then rest else [s[0]] + rest
  }

  /** idx lists, in strictly increasing order, positions of b holding the elements of a:
      a is a subsequence of b. */
  ghost predicate Embeds<T>(a: seq<T>, b: seq<T>, idx: seq<nat>) {
    && |idx| == |a|
    && (forall k :: 0 <= k < |idx| ==> idx[k] < |b| && a[k] == b[idx[k]])
    && (forall k, l :: 0 <= k < l < |idx| ==> idx[k] < idx[l])
  }

  /** The positions from `from` on whose element of s is not excluded, in increasing order. */
  function KeptFrom<T(==)>(s: seq<T>, excluded: seq<T>, from: nat): (idx: seq<nat>)
    requires from <= |s|
    ensures forall k :: 0 <= k < |idx| ==> from <= idx[k] < |s| && s[idx[k]] !in excluded
    ensures forall i :: from <= i < |s| && s[i] !in excluded ==> i in idx
    ensures forall k, l :: 0 <= k < l < |idx| ==> idx[k] < idx[l]
    decreases |s| - from
  {
    if from == |s| then []
    else
      var rest := KeptFrom(s, excluded, from + 1);
      if s[from] in excluded then rest else [from] + rest
  }

  /** Filtering keeps exactly the elements at the kept positions, in order. */
  lemma {:induction false} WithoutIsSubsequence<T(!new)>(s: seq<T>, excluded: seq<T>, from: nat)
    requires from <= |s|
    ensures Embeds(Without(s[from..], excluded), s, KeptFrom(s, excluded, from))
    decreases |s| - from
  {
    if from < |s| {
      WithoutIsSubsequence(s, excluded, from + 1);
      assert s[from..][1..] == s[from + 1..];
    }
  }

  /** Filtering drops everything when every element is excluded. */
  lemma {:induction false} WithoutAllExcluded<T(!new)>(s: seq<T>, excluded: seq<T>)
    requires forall x :: x in s ==> x in excluded
    ensures Without(s, excluded) == []
    decreases |s|
  {
    if |s| > 0 {
      assert forall x :: x in s[1..] ==> x in s;
      WithoutAllExcluded(s[1..], excluded);
    }
  }

  /** `ise_gp_del(fw_gp, ise_gp)`: the group members the gateway does not report. */
  function DeleteList<T(==,!new)>(fwGp: seq<T>, iseGp: seq<T>): (del: seq<T>)
    ensures forall x :: x in del <==> x in iseGp && x !in fwGp
    ensures forall x :: multiset(del)[x] == if x in fwGp then 0 else multiset(iseGp)[x]
  {
    Without(iseGp, fwGp)
  }

  /** `ise_gp_add(fw_gp, ise_gp)`: the gateway users the group does not contain. */
  function AddList<T(==,!new)>(fwGp: seq<T>, iseGp: seq<T>): (add: seq<T>)
    ensures forall x :: x in add <==> x in fwGp && x !in iseGp
    ensures forall x :: multiset(add)[x] == if x in iseGp then 0 else multiset(fwGp)[x]
  {
    Without(fwGp, iseGp)
  }

  /** Both lists keep the order of the list they were filtered from. */
  lemma ListsKeepOrder<T(!new)>(fwGp: seq<T>, iseGp: seq<T>)
    ensures Embeds(DeleteList(fwGp, iseGp), iseGp, KeptFrom(iseGp, fwGp, 0))
    ensures Embeds(AddList(fwGp, iseGp), fwGp, KeptFrom(fwGp, iseGp, 0))
  {
    WithoutIsSubsequence(iseGp, fwGp, 0);
    WithoutIsSubsequence(fwGp, iseGp, 0);
    assert iseGp[0..] == iseGp && fwGp[0..] == fwGp;
  }

  /** When both sides hold the same names, there is nothing to do. */
  lemma SameNamesNothingToDo<T(!new)>(fwGp: seq<T>, iseGp: seq<T>)
    requires forall x :: x in fwGp <==> x in iseGp
    ensures DeleteList(fwGp, iseGp) == [] && AddList(fwGp, iseGp) == []
  {
    WithoutAllExcluded(iseGp, fwGp);
    WithoutAllExcluded(fwGp, iseGp);
  }

  /** The group after the sync: the removed members dropped, the added ones appended. */
  function Apply<T(==,!new)>(iseGp: seq<T>, del: seq<T>, add: seq<T>): seq<T> {
    Without(iseGp, del) + add
  }

  /** Applying the two lists converges: recomputing the diff afterwards finds nothing
      left to remove or add, and the group holds exactly the gateway's names. */
  lemma Converges<T(!new)>(fwGp: seq<T>, iseGp: seq<T>)
    ensures var synced := Apply(iseGp, DeleteList(fwGp, iseGp), AddList(fwGp, iseGp));
      && (forall x :: !(x in DeleteList(fwGp, iseGp) && x in AddList(fwGp, iseGp)))
      && (forall x :: x in synced <==> x in fwGp)
      && DeleteList(fwGp, synced) == []
      && AddList(fwGp, synced) == []
  {
    var del := DeleteList(fwGp, iseGp);
    var add := AddList(fwGp, iseGp);
    var synced := Apply(iseGp, del, add);
    assert forall x :: x in synced <==> x in Without(iseGp, del) || x in add;
    WithoutAllExcluded(synced, fwGp);
    WithoutAllExcluded(fwGp, synced);
  }

  /** Names differing only in case are different names: a group member "alice" is
      removed even though the gateway reports "Alice". */
  lemma NamesAreCaseSensitive()
    ensures DeleteList(["Alice"], ["alice"]) == ["alice"]
    ensures AddList(["Alice"], ["alice"]) == ["Alice"]
  {
    assert "alice" != "Alice";
  }
}

=== FILE: retry.dfy ===
/** The source's retry loops: a remote call is tried up to three times; an attempt
    that raises is logged and the next one is made, and the first attempt that
    returns ends the loop with its answer. Attempts are abstract outcomes, and the
    sleeps between them are not modelled. */
module Retry {
  import opened Common

  /** What one attempt at a remote call ended in. */
  datatype Attempt<+T> = Raised | Returned(value: T)

  /** Every retry loop of the source allows three attempts. */
  const MaxAttempts: nat := 3

  predicate AllRaised<T>(answers: seq<Attempt<T>>, n: nat)
    requires n <= |answers|
  {
    forall i :: 0 <= i < n ==> answers[i].Raised?
  }

  /** Attempt k is the first of the first `limit` attempts that returned. */
  predicate IsFirstReturned<T>(answers: seq<Attempt<T>>, limit: nat, k: nat) {
    k < limit && k < |answers| && answers[k].Returned? && AllRaised(answers, k)
  }

  /** The position of the first answer, among the first `limit`, that returned. */
  function FirstReturned<T>(answers: seq<Attempt<T>>, limit: nat): (r: Option<nat>)
    requires limit <= |answers|
    ensures r.None? <==> AllRaised(answers, limit)
    ensures r.Some? ==> r.value < limit && answers[r.value].Returned? && AllRaised(answers, r.value)
    decreases limit
  {
    if limit == 0 then None
    else if answers[0].Returned? then Some(0)
    else match FirstReturned(answers[1..], limit - 1)
      case None => None
      case Some(k) => Some(k + 1)
  }

  /** How many attempts a loop made and what the attempt that ended it returned. */
  datatype Outcome<+T> = Outcome(attempts: nat, value: Option<T>)

  /** A loop allowing `limit` attempts, where `answers[i]` is how attempt i+1 ends. */
  function Run<T>(answers: seq<Attempt<T>>, limit: nat): (r: Outcome<T>)
    requires limit <= |answers|
    ensures r.attempts <= limit
    ensures limit > 0 ==> r.attempts >= 1
    ensures r.value.None? <==> AllRaised(answers, limit)
    ensures r.value.None? ==> r.attempts == limit
    ensures r.value.Some? ==> answers[r.attempts - 1] == Returned(r.value.value)
    ensures r.value.Some? ==> AllRaised(answers, r.attempts - 1)
  {
    match FirstReturned(answers, limit)
    case None => Outcome(limit, None)
    case Some(k) => Outcome(k + 1, Some(answers[k].value))
  }

  /** The loop stops at the first attempt that does not raise: answers past the
      attempts it made are never consulted. */
  lemma RunIgnoresLaterAnswers<T>(a: seq<Attempt<T>>, b: seq<Attempt<T>>, limit: nat)
    requires limit <= |a| && limit <= |b|
    requires a[..Run(a, limit).attempts] == b[..Run(a, limit).attempts]
    ensures Run(a, limit) == Run(b, limit)
  {
    var n := Run(a, limit).attempts;
    assert forall i :: 0 <= i < n ==> a[i] == b[i] by {
      forall i | 0 <= i < n ensures a[i] == b[i] {
        assert a[..n][i] == b[..n][i];
      }
    }
  }

  /** The loop ends at the first attempt that returned, and uses what it returned. */
  lemma RunStopsAtFirstReturned<T>(answers: seq<Attempt<T>>, limit: nat, k: nat)
    requires limit <= |answers| && IsFirstReturned(answers, limit, k)
    ensures Run(answers, limit) == Outcome(k + 1, Some(answers[k].value))
  {
    var r := Run(answers, limit);
    assert !answers[k].Raised?;
  }
}

=== FILE: test_cases.dfy ===
/** The helpers of the load-test script (testcases.py): the number at the end of a
    test user's name, the name-to-id table of identity groups, the body of a
    user-creation request, and the create/delete calls with their three attempts. */
module TestCases {
  import opened Common
  import opened Values
  import Text
  import Retry
  import CiscoIse

  /** How many ASCII digits s ends with. */
  function TrailingRun(s: string): (n: nat)
    ensures n <= |s|
    ensures Text.AllDigits(s[|s| - n..])
    ensures n < |s| ==> !Text.IsDigit(s[|s| - n - 1])
    decreases |s|
  {
    if |s| == 0 || !Text.IsDigit(s[|s| - 1]) then 0
    else
      var t := s[..|s| - 1];
      var n := TrailingRun(t);
      var prev := t[|t| - n..];
      var run := s[|s| - n - 1..];
      assert run == prev + [s[|s| - 1]];
      assert forall i :: 0 <= i < |run| ==> Text.IsDigit(run[i]) by {
        forall i | 0 <= i < |run| ensures Text.IsDigit(run[i]) {
          if i < n {
            assert run[i] == prev[i];
          }
        }
      }
      assert n < |t| ==> s[|s| - n - 2] == t[|t| - n - 1];
      n + 1
  }

  /** `get_trailing_number(s)`: the value of the digits s ends with, None when it
      does not end with a digit. */
  function TrailingNumber(s: string): (r: Option<nat>)
    ensures r.None? <==> |s| == 0 || !Text.IsDigit(s[|s| - 1])
  {
    var n := TrailingRun(s);
    if n == 0 then None else Some(Text.DecimalValue(s[|s| - n..]))
  }

  /** s does not end with a digit: a run of digits appended to it is the whole run. */
  predicate EndsOutsideDigits(s: string) {
    |s| == 0 || !Text.IsDigit(s[|s| - 1])
  }

  /** Appending digits to a text that does not end with one makes them its trailing run. */
  lemma {:induction false} RunAfterNonDigit(name: string, digits: string)
    requires EndsOutsideDigits(name) && Text.AllDigits(digits)
    ensures TrailingRun(name + digits) == |digits|
    decreases |digits|
  {
    if |digits| > 0 {
      assert (name + digits)[..|name + digits| - 1] == name + digits[..|digits| - 1];
      RunAfterNonDigit(name, digits[..|digits| - 1]);
    }
  }

  /** The number is read from the digits after the last non-digit. */
  lemma NumberAfterNonDigit(name: string, digits: string)
    requires EndsOutsideDigits(name) && Text.AllDigits(digits) && |digits| > 0
    ensures TrailingNumber(name + digits) == Some(Text.DecimalValue(digits))
  {
    RunAfterNonDigit(name, digits);
    assert (name + digits)[|name + digits| - |digits|..] == digits;
  }

  /** A name built as prefix plus `str(n)` gives back n. */
  lemma TrailingNumberRoundTrip(name: string, n: nat)
    requires EndsOutsideDigits(name)
    ensures TrailingNumber(name + Text.ToDecimal(n)) == Some(n)
  {
    NumberAfterNonDigit(name, Text.ToDecimal(n));
    Text.DecimalRoundTrip(n);
  }

  /** Leading zeros of the trailing run are dropped: `user007` and `user7` give the same number. */
  lemma TrailingNumberSkipsZero(name: string, digits: string)
    requires EndsOutsideDigits(name) && Text.AllDigits(digits) && |digits| > 0
    ensures TrailingNumber(name + "0" + digits) == TrailingNumber(name + digits)
  {
    Text.DecimalLeadingZero(digits);
    assert name + "0" + digits == name + ("0" + digits);
    NumberAfterNonDigit(name, "0" + digits);
    NumberAfterNonDigit(name, digits);
  }

  /** Only the trailing run counts: once the text ends with tail, a tail that holds
      a non-digit alone decides the number, whatever comes before it. */
  lemma {:induction false} RunInsideTail(head: string, tail: string)
    requires !Text.AllDigits(tail)
    ensures TrailingRun(head + tail) == TrailingRun(tail)
    decreases |tail|
  {
    var s := head + tail;
    assert s[|s| - 1] == tail[|tail| - 1];
    if Text.IsDigit(tail[|tail| - 1]) {
      var shorter := tail[..|tail| - 1];
      assert !Text.AllDigits(shorter) by {
        var i :| 0 <= i < |tail| && !Text.IsDigit(tail[i]);
        assert shorter[i] == tail[i];
      }
      assert s[..|s| - 1] == head + shorter;
      RunInsideTail(head, shorter);
      assert TrailingRun(s) == TrailingRun(head + shorter) + 1;
      assert TrailingRun(tail) == TrailingRun(shorter) + 1;
    }
  }

  /** The digits outside the final run (and everything else before it) do not
      change the number. */
  lemma TrailingNumberIgnoresHead(head: string, tail: string)
    requires !Text.AllDigits(tail)
    ensures TrailingNumber(head + tail) == TrailingNumber(tail)
  {
    RunInsideTail(head, tail);
    var n := TrailingRun(tail);
    assert (head + tail)[|head + tail| - n..] == tail[|tail| - n..];
  }

  /** `get_groups` from the parsed answer of the identity-group search: the table
      from each resource's `name` to its `id`, or None when the answer lacks
      `SearchResult.resources` or a resource lacks one of the two fields. */
  function GetGroups(answer: Value): (r: Option<map<string, Value>>)
    ensures r.Some? <==>
      && CiscoIse.Resources(answer).Some?
      && forall i :: 0 <= i < |CiscoIse.Resources(answer).value| ==> Entry(CiscoIse.Resources(answer).value[i], Field("id")).Some?
  {
    match CiscoIse.Resources(answer)
    case None => None
    case Some(groups) =>
      var indexed := IndexByName(map[], groups, Field("id"));
      if indexed.complete then Some(indexed.index) else None
  }

  /** Resource i is the last one named n. */
  predicate LastNamed(resources: seq<Value>, i: nat, n: string)
    requires forall k :: 0 <= k < |resources| ==> Entry(resources[k], Field("id")).Some?
  {
    && i < |resources|
    && Entry(resources[i], Field("id")).value.0 == n
    && forall j :: i < j < |resources| ==> Entry(resources[j], Field("id")).value.0 != n
  }

  /** The table has exactly the resources' names as keys, and each maps to the id
      of the last resource carrying it. */
  lemma GetGroupsTable(answer: Value, n: string)
    requires GetGroups(answer).Some?
    ensures var resources := CiscoIse.Resources(answer).value;
      n in GetGroups(answer).value <==>
        exists i :: 0 <= i < |resources| && Entry(resources[i], Field("id")).value.0 == n
    ensures forall i: nat :: LastNamed(CiscoIse.Resources(answer).value, i, n) ==>
      GetGroups(answer).value[n] == Entry(CiscoIse.Resources(answer).value[i], Field("id")).value.1
  {
    var resources := CiscoIse.Resources(answer).value;
    var table := GetGroups(answer).value;
    assert table == IndexByName(map[], resources, Field("id")).index;
    if exists i :: 0 <= i < |resources| && Entry(resources[i], Field("id")).value.0 == n {
      var i :| 0 <= i < |resources| && Entry(resources[i], Field("id")).value.0 == n;
      IndexHasEveryName(map[], resources, Field("id"), i);
    } else {
      IndexKeepsUnnamed(map[], resources, Field("id"), n);
    }
    forall i: nat | LastNamed(resources, i, n)
      ensures table[n] == Entry(resources[i], Field("id")).value.1
    {
      IndexLastWins(map[], resources, Field("id"), i);
    }
  }

  /** `f"User {get_trailing_number(user_name)}"`. */
  function LastName(userName: string): (r: string)
    ensures |r| > 5 && r[..5] == "User "
    ensures r == "User None" <==> TrailingNumber(userName).None?
  {
    "User " + match TrailingNumber(userName)
      case None => "None"
      case Some(n) => Text.ToDecimal(n)
  }

  /** The last name carries the user name's number: reading the number back from
      it gives the same answer, None included. */
  lemma LastNameKeepsNumber(userName: string)
    ensures TrailingNumber(LastName(userName)) == TrailingNumber(userName)
  {
    match TrailingNumber(userName)
    case None =>
      assert LastName(userName) == "User None";
    case Some(n) =>
      assert LastName(userName) == "User " + Text.ToDecimal(n);
      TrailingNumberRoundTrip("User ", n);
  }

  /** The test users `user<i>` and `extuser<i>` get the last name `User <i>`. */
  lemma TestUserLastName(prefix: string, i: nat)
    requires EndsOutsideDigits(prefix)
    ensures LastName(prefix + Text.ToDecimal(i)) == "User " + Text.ToDecimal(i)
  {
    TrailingNumberRoundTrip(prefix, i);
  }

  /** The fields of the created user. */
  function CreateFields(userName: string, password: string, email: string,
                        group: string, last: string): (u: map<string, Value>)
    ensures Get(Dict(u), "name") == Some(Str(userName))
    ensures Get(Dict(u), "password") == Some(Str(password))
    ensures Get(Dict(u), "email") == Some(Str(email))
    ensures Get(Dict(u), "identityGroups") == Some(Str(group))
    ensures Get(Dict(u), "changePassword") == Some(Str("false"))
    ensures Get(Dict(u), "firstName") == Some(Str("Test"))
    ensures Get(Dict(u), "lastName") == Some(Str(last))
  {
    map[
      "name" := Str(userName),
      "password" := Str(password),
      "email" := Str(email),
      "identityGroups" := Str(group),
      "changePassword" := Str("false"),
      "firstName" := Str("Test"),
      "lastName" := Str(last)]
  }

  /** The body of the user-creation request. */
  function CreatePayload(userName: string, password: string, email: string,
                         groupId: Value, show: Value -> string): (p: Value)
    ensures Get(p, "InternalUser").Some? && p.fields.Keys == {"InternalUser"}
    ensures Lookup(p, ["InternalUser", "name"]) == Some(Str(userName))
    ensures Lookup(p, ["InternalUser", "password"]) == Some(Str(password))
    ensures Lookup(p, ["InternalUser", "email"]) == Some(Str(email))
    ensures Lookup(p, ["InternalUser", "identityGroups"]) == Some(Str(Render(groupId, show)))
    ensures Lookup(p, ["InternalUser", "changePassword"]) == Some(Str("false"))
    ensures Lookup(p, ["InternalUser", "firstName"]) == Some(Str("Test"))
    ensures Lookup(p, ["InternalUser", "lastName"]) == Some(Str(LastName(userName)))
  {
    var user := CreateFields(userName, password, email, Render(groupId, show), LastName(userName));
    var p := Dict(map["InternalUser" := Dict(user)]);
    LookupShort(p, "InternalUser", "name");
    LookupShort(p, "InternalUser", "password");
    LookupShort(p, "InternalUser", "email");
    LookupShort(p, "InternalUser", "identityGroups");
    LookupShort(p, "InternalUser", "changePassword");
    LookupShort(p, "InternalUser", "firstName");
    LookupShort(p, "InternalUser", "lastName");
    p
  }

  /** A request to the ERS interface of ISE. */
  datatype Request = Request(verb: string, path: string, payload: Option<Value>)

  /** A call with its retries: the request, how many attempts were made, and what
      the function returns. When every attempt raised, `return result` finds
      `result` unbound and raises in turn. */
  datatype Call = Call(request: Request, attempts: nat, result: Result<Value>)

  /** The `for _ in range(3)` loop around one request. */
  function Attempted(request: Request, answers: seq<Retry.Attempt<Value>>): (r: Call)
    requires |answers| >= Retry.MaxAttempts
    ensures r.request == request
    ensures 1 <= r.attempts <= Retry.MaxAttempts
    ensures r.result.Err? <==> Retry.AllRaised(answers, Retry.MaxAttempts)
    ensures r.result.Err? ==> r.attempts == Retry.MaxAttempts && r.result.error == Unreachable
    ensures forall k: nat :: Retry.IsFirstReturned(answers, Retry.MaxAttempts, k) ==>
      r.attempts == k + 1 && r.result == Ok(answers[k].value)
  {
    var run := Retry.Run(answers, Retry.MaxAttempts);
    assert forall k: nat :: Retry.IsFirstReturned(answers, Retry.MaxAttempts, k) ==>
        run == Retry.Outcome(k + 1, Some(answers[k].value)) by {
      forall k: nat | Retry.IsFirstReturned(answers, Retry.MaxAttempts, k)
        ensures run == Retry.Outcome(k + 1, Some(answers[k].value))
      {
        Retry.RunStopsAtFirstReturned(answers, Retry.MaxAttempts, k);
      }
    }
    match run.value
    case None => Call(request, run.attempts, Err(Unreachable))
    case Some(v) => Call(request, run.attempts, Ok(v))
  }

  /** `delete_ise_user(user_id)`. */
  function DeleteUser(userId: Value, show: Value -> string, answers: seq<Retry.Attempt<Value>>): (r: Call)
    requires |answers| >= Retry.MaxAttempts
    ensures r.request.verb == "DELETE" && r.request.payload.None?
    ensures r.request.path == "/ers/config/internaluser/" + Render(userId, show)
    ensures r == Attempted(r.request, answers)
  {
    Attempted(Request("DELETE", "/ers/config/internaluser/" + Render(userId, show), None), answers)
  }

  /** `create_ise_user(user_name, user_password, user_email, group_id)`. */
  function CreateUser(userName: string, password: string, email: string, groupId: Value,
                      show: Value -> string, answers: seq<Retry.Attempt<Value>>): (r: Call)
    requires |answers| >= Retry.MaxAttempts
    ensures r.request.verb == "POST" && r.request.path == "/ers/config/internaluser"
    ensures r.request.payload == Some(CreatePayload(userName, password, email, groupId, show))
    ensures r == Attempted(r.request, answers)
  {
    Attempted(Request("POST", "/ers/config/internaluser",
                      Some(CreatePayload(userName, password, email, groupId, show))), answers)
  }

  /** Every attempt sends the same request, so a call whose answers agree on the
      attempts it made ends alike: the loop never looks past the first answer. */
  lemma CallIgnoresLaterAnswers(request: Request, a: seq<Retry.Attempt<Value>>, b: seq<Retry.Attempt<Value>>)
    requires |a| >= Retry.MaxAttempts && |b| >= Retry.MaxAttempts
    requires a[..Attempted(request, a).attempts] == b[..Attempted(request, a).attempts]
    ensures Attempted(request, a) == Attempted(request, b)
  {
    Retry.RunIgnoresLaterAnswers(a, b, Retry.MaxAttempts);
  }
}

=== FILE: text.dfy ===
/** String helpers the source borrows from Python's `str`: `strip()`, `join`,
    `int()` of a digit string and `str()` of a non-negative integer. */
module Text {

  /** The characters `str.isspace()` accepts, which `str.strip()` removes from both ends. */
  predicate IsSpace(c: char) {
    || c == ' '
    || '\t' <= c <= '\r'
    || '\U{1c}' <= c <= '\U{1f}'
    || c == '\U{85}'
    || c == '\U{a0}'
    || c == '\U{1680}'
    || '\U{2000}' <= c <= '\U{200a}'
    || c == '\U{2028}'
    || c == '\U{2029}'
    || c == '\U{202f}'
    || c == '\U{205f}'
    || c == '\U{3000}'
  }

  predicate AllSpace(s: string) {
    forall i :: 0 <= i < |s| ==> IsSpace(s[i])
  }

  /** `s.lstrip()`: the suffix of s left after dropping leading whitespace. */
  function StripStart(s: string): (r: string)
    ensures |r| <= |s| && r == s[|s| - |r|..]
    ensures AllSpace(s[..|s| - |r|])
    ensures |r| == 0 || !IsSpace(r[0])
    decreases |s|
  {
    if |s| > 0 && IsSpace(s[0]) then
      var r := StripStart(s[1..]);
      assert s[..|s| - |r|] == [s[0]] + s[1..][..|s| - 1 - |r|];
      r
    else s
  }

  /** `s.rstrip()`: the prefix of s left after dropping trailing whitespace. */
  function StripEnd(s: string): (r: string)
    ensures |r| <= |s| && r == s[..|r|]
    ensures AllSpace(s[|r|..])
    ensures |r| == 0 || !IsSpace(r[|r| - 1])
    decreases |s|
  {
    if |s| > 0 && IsSpace(s[|s| - 1]) then
      var r := StripEnd(s[..|s| - 1]);
      assert s[|r|..] == s[..|s| - 1][|r|..] + [s[|s| - 1]];
      r
    else s
  }

  /** `s.strip()`. */
  function Strip(s: string): (r: string)
    ensures |r| == 0 <==> AllSpace(s)
    ensures |r| > 0 ==> !IsSpace(r[0]) && !IsSpace(r[|r| - 1])
  {
    var t := StripStart(s);
    var r := StripEnd(t);
    assert AllSpace(s) ==> |t| == 0;
    assert |r| == 0 ==> AllSpace(s) by {
      if |r| == 0 {
        assert t == t[0..];
        assert s == s[..|s| - |t|] + t;
      }
    }
    r
  }

  /** A string without whitespace at either end is its own strip. */
  lemma StripUnpadded(s: string)
    requires |s| > 0 && !IsSpace(s[0]) && !IsSpace(s[|s| - 1])
    ensures Strip(s) == s
  {
  }

  /** Leading whitespace is dropped whatever follows it. */
  lemma {:induction false} StripStartSkipsPad(pad: string, s: string)
    requires AllSpace(pad)
    ensures StripStart(pad + s) == StripStart(s)
    decreases |pad|
  {
    if |pad| > 0 {
      var t := pad + s;
      assert t[0] == pad[0];
      assert IsSpace(t[0]);
      assert StripStart(t) == StripStart(t[1..]);
      assert t[1..] == pad[1..] + s;
      assert AllSpace(pad[1..]) by {
        assert forall i :: 0 <= i < |pad| - 1 ==> pad[1..][i] == pad[i + 1];
      }
      StripStartSkipsPad(pad[1..], s);
    } else {
      assert pad + s == s;
    }
  }

  /** Trailing whitespace survives lstrip unless everything is whitespace. */
  lemma {:induction false} StripStartKeepsPad(s: string, pad: string)
    requires AllSpace(pad)
    ensures StripStart(s + pad) == if AllSpace(s) then "" else StripStart(s) + pad
    decreases |s|
  {
    if |s| == 0 {
      assert s + pad == pad;
      StripStartSkipsPad(pad, "");
      assert pad + "" == pad;
    } else {
      assert (s + pad)[0] == s[0];
      if IsSpace(s[0]) {
        assert (s + pad)[1..] == s[1..] + pad;
        StripStartKeepsPad(s[1..], pad);
        assert AllSpace(s) <==> AllSpace(s[1..]) by {
          assert forall i :: 1 <= i < |s| ==> s[i] == s[1..][i - 1];
        }
      }
    }
  }

  /** Trailing whitespace is dropped whatever precedes it. */
  lemma {:induction false} StripEndSkipsPad(s: string, pad: string)
    requires AllSpace(pad)
    ensures StripEnd(s + pad) == StripEnd(s)
    decreases |pad|
  {
    if |pad| > 0 {
      var shorter := pad[..|pad| - 1];
      assert (s + pad)[..|s + pad| - 1] == s + shorter;
      StripEndSkipsPad(s, shorter);
    } else {
      assert s + pad == s;
    }
  }

  /** `s.strip()` ignores whitespace added around s. */
  lemma StripPadded(s: string, pad1: string, pad2: string)
    requires AllSpace(pad1) && AllSpace(pad2)
    ensures Strip(pad1 + s + pad2) == Strip(s)
  {
    assert pad1 + s + pad2 == pad1 + (s + pad2);
    StripStartSkipsPad(pad1, s + pad2);
    StripStartKeepsPad(s, pad2);
    if !AllSpace(s) {
      StripEndSkipsPad(StripStart(s), pad2);
    }
  }

  /** `s.strip()` of whitespace, then a word without whitespace at its ends, then
      whitespace, is that word. */
  lemma StripFindsCore(pad1: string, core: string, pad2: string)
    requires AllSpace(pad1) && AllSpace(pad2)
    requires |core| > 0 && !IsSpace(core[0]) && !IsSpace(core[|core| - 1])
    ensures Strip(pad1 + core + pad2) == core
  {
    StripPadded(core, pad1, pad2);
    StripUnpadded(core);
  }

  /** `sep.join(parts)`. */
  function Join(parts: seq<string>, sep: string): string
    decreases |parts|
  {
    if |parts| == 0 then ""
    else if |parts| == 1 then parts[0]
    else parts[0] + sep + Join(parts[1..], sep)
  }

  /** Position of the first c in s, or |s| when there is none. */
  function IndexOf(s: string, c: char): (i: nat)
    ensures i <= |s|
    ensures forall j :: 0 <= j < i ==> s[j] != c
    ensures i < |s| ==> s[i] == c
    decreases |s|
  {
    if |s| == 0 then 0
    else if s[0] == c then 0
    else 1 + IndexOf(s[1..], c)
  }

  /** Cuts s at every comma and drops the one character after each comma:
      the reading of a `", "`-joined list. */
  function SplitCommaSpace(s: string): seq<string>
    decreases |s|
  {
    var i := IndexOf(s, ',');
    if i == |s| then [s]
    else [s[..i]] + SplitCommaSpace(s[if i + 2 <= |s| then i + 2 else |s|..])
  }

  /** Reading a `", "`-joined list of comma-free parts gives the parts back. */
  lemma {:induction false} SplitJoin(parts: seq<string>)
    requires |parts| > 0
    requires forall i :: 0 <= i < |parts| ==> ',' !in parts[i]
    ensures SplitCommaSpace(Join(parts, ", ")) == parts
    decreases |parts|
  {
    var head := parts[0];
    if |parts| == 1 {
      var i := IndexOf(head, ',');
      assert i == |head|;
    } else {
      var rest := Join(parts[1..], ", ");
      var s := head + ", " + rest;
      assert Join(parts, ", ") == s;
      var i := IndexOf(s, ',');
      assert s[|head|] == ',';
      assert i == |head|;
      assert s[..i] == head;
      assert s[i + 2..] == rest;
      SplitJoin(parts[1..]);
      assert parts == [head] + parts[1..];
    }
  }

  predicate IsDigit(c: char) {
    '0' <= c <= '9'
  }

  predicate AllDigits(s: string) {
    forall i :: 0 <= i < |s| ==> IsDigit(s[i])
  }

  function DigitValue(c: char): (d: nat)
    requires IsDigit(c)
    ensures d < 10
  {
    (c as int) - ('0' as int)
  }

  function DigitChar(d: nat): (c: char)
    requires d < 10
    ensures IsDigit(c) && DigitValue(c) == d
  {
    (('0' as int) + d) as char
  }

  /** `int(s)` for a string of ASCII digits (leading zeros allowed; the empty string gives 0). */
  function DecimalValue(s: string): nat
    requires AllDigits(s)
    decreases |s|
  {
    if |s| == 0 then 0
    else DecimalValue(s[..|s| - 1]) * 10 + DigitValue(s[|s| - 1])
  }

  /** `str(n)` for a non-negative integer: its decimal digits, without leading zeros. */
  function ToDecimal(n: nat): (s: string)
    ensures |s| > 0 && AllDigits(s)
    ensures s[0] == '0' ==> n == 0
    decreases n
  {
    if n < 10 then [DigitChar(n)]
    else ToDecimal(n / 10) + [DigitChar(n % 10)]
  }

  /** Reading back the rendered digits gives the number again. */
  lemma {:induction false} DecimalRoundTrip(n: nat)
    ensures DecimalValue(ToDecimal(n)) == n
    decreases n
  {
    if n >= 10 {
      var s := ToDecimal(n);
      assert s[..|s| - 1] == ToDecimal(n / 10);
      DecimalRoundTrip(n / 10);
    }
  }

  /** Leading zeros do not change the value `int()` reads. */
  lemma {:induction false} DecimalLeadingZero(s: string)
    requires AllDigits(s)
    ensures AllDigits("0" + s) && DecimalValue("0" + s) == DecimalValue(s)
    decreases |s|
  {
    if |s| > 0 {
      assert ("0" + s)[..|s|] == "0" + s[..|s| - 1];
      DecimalLeadingZero(s[..|s| - 1]);
    }
  }
}

=== FILE: utf8.dfy ===
/** UTF-8, as Python's `str.encode('utf-8')` and `bytes.decode('utf-8')` apply it:
    every Unicode scalar value takes one to four bytes, and decoding rejects
    overlong forms, surrogates, values above U+10FFFF and stray bytes. */
module Utf8 {
  import opened Common

  predicate IsContinuation(b: byte) {
    0x80 <= b < 0xC0
  }

  /** The bytes of one code point. */
  function EncodeChar(c: char): (bs: seq<byte>)
    ensures 1 <= |bs| <= 4
    ensures (c as int < 0x80) <==> |bs| == 1
  {
    var v := c as int;
    if v < 0x80 then [v]
    else if v < 0x800 then [0xC0 + v / 64, 0x80 + v % 64]
    else if v < 0x10000 then [0xE0 + v / 4096, 0x80 + (v / 64) % 64, 0x80 + v % 64]
    else [0xF0 + v / 262144, 0x80 + (v / 4096) % 64, 0x80 + (v / 64) % 64, 0x80 + v % 64]
  }

  /** `s.encode('utf-8')`. */
  function Encode(s: string): (bs: seq<byte>)
    ensures |bs| >= |s|
    decreases |s|
  {
    if |s| == 0 then [] else EncodeChar(s[0]) + Encode(s[1..])
  }

  /** The code point at the start of bs and how many bytes it used, or None when
      the bytes there are not well-formed UTF-8. */
  function DecodeFirst(bs: seq<byte>): (r: Option<(char, nat)>)
    requires |bs| > 0
    ensures r.Some? ==> 1 <= r.value.1 <= |bs|
  {
    var b0 := bs[0] as int;
    if b0 < 0x80 then Some((b0 as char, 1))
    else if 0xC2 <= b0 < 0xE0 then
      if |bs| >= 2 && IsContinuation(bs[1]) then
        Some((((b0 - 0xC0) * 64 + (bs[1] as int - 0x80)) as char, 2))
      else None
    else if 0xE0 <= b0 < 0xF0 then
      if |bs| >= 3 && IsContinuation(bs[1]) && IsContinuation(bs[2]) then
        var v := (b0 - 0xE0) * 4096 + (bs[1] as int - 0x80) * 64 + (bs[2] as int - 0x80);
        if v < 0x800 || (0xD800 <= v < 0xE000) then None else Some((v as char, 3))
      else None
    else if 0xF0 <= b0 < 0xF5 then
      if |bs| >= 4 && IsContinuation(bs[1]) && IsContinuation(bs[2]) && IsContinuation(bs[3]) then
        var v := (b0 - 0xF0) * 262144 + (bs[1] as int - 0x80) * 4096 + (bs[2] as int - 0x80) * 64 + (bs[3] as int - 0x80);
        if v < 0x10000 || v >= 0x110000 then None else Some((v as char, 4))
      else None
    else None
  }

  /** `bs.decode('utf-8')`, None where Python raises `UnicodeDecodeError`. The
      decoder is strict: whatever it accepts is the one encoding of its result. */
  function Decode(bs: seq<byte>): (r: Option<string>)
    ensures r.Some? ==> Encode(r.value) == bs
    decreases |bs|
  {
    if |bs| == 0 then Some([])
    else match DecodeFirst(bs)
      case None => None
      case Some((c, n)) =>
        match Decode(bs[n..])
        case None => None
        case Some(rest) =>
          EncodeCharOfDecodeFirst(bs);
          assert ([c] + rest)[0] == c && ([c] + rest)[1..] == rest;
          assert bs[..n] + bs[n..] == bs;
          Some([c] + rest)
  }

  /** Splitting q * 64 + r with r below 64 gives back q and r. */
  lemma Digits64(q: int, r: int)
    requires 0 <= q && 0 <= r < 64
    ensures (q * 64 + r) / 64 == q && (q * 64 + r) % 64 == r
  {
  }

  /** The code point DecodeFirst reads is encoded by exactly the bytes it used. */
  lemma EncodeCharOfDecodeFirst(bs: seq<byte>)
    requires |bs| > 0 && DecodeFirst(bs).Some?
    ensures EncodeChar(DecodeFirst(bs).value.0) == bs[..DecodeFirst(bs).value.1]
  {
    var b0 := bs[0] as int;
    var c := DecodeFirst(bs).value.0;
    var v := c as int;
    if b0 < 0x80 {
      assert EncodeChar(c) == [bs[0]];
    } else if 0xC2 <= b0 < 0xE0 {
      var x1 := bs[1] as int - 0x80;
      assert v == (b0 - 0xC0) * 64 + x1;
      Digits64(b0 - 0xC0, x1);
      assert EncodeChar(c) == [bs[0], bs[1]];
    } else if 0xE0 <= b0 < 0xF0 {
      var x1 := bs[1] as int - 0x80;
      var x2 := bs[2] as int - 0x80;
      var hi := (b0 - 0xE0) * 64 + x1;
      assert v == hi * 64 + x2;
      Digits64(hi, x2);
      Digits64(b0 - 0xE0, x1);
      assert v / 4096 == (v / 64) / 64;
      assert EncodeChar(c) == [bs[0], bs[1], bs[2]];
    } else {
      var x1 := bs[1] as int - 0x80;
      var x2 := bs[2] as int - 0x80;
      var x3 := bs[3] as int - 0x80;
      var top := (b0 - 0xF0) * 64 + x1;
      var mid := top * 64 + x2;
      assert v == mid * 64 + x3;
      Digits64(mid, x3);
      Digits64(top, x2);
      Digits64(b0 - 0xF0, x1);
      assert v / 4096 == (v / 64) / 64;
      assert v / 262144 == (v / 4096) / 64;
      assert EncodeChar(c) == [bs[0], bs[1], bs[2], bs[3]];
    }
  }

  /** Splitting a non-negative number into six-bit groups. */
  lemma SixBits(v: int)
    requires 0 <= v
    ensures v == (v / 64) * 64 + v % 64 && 0 <= v % 64 < 64
    ensures v / 4096 == (v / 64) / 64
    ensures (v / 64) == (v / 4096) * 64 + (v / 64) % 64
    ensures v / 262144 == (v / 4096) / 64
    ensures (v / 4096) == (v / 262144) * 64 + (v / 4096) % 64
  {
    var q := v / 64;
    var r := v % 64;
    assert v == 4096 * (q / 64) + 64 * (q % 64) + r;
    var p := v / 4096;
    assert v == 262144 * (p / 64) + 4096 * (p % 64) + 64 * (q % 64) + r;
  }

  /** Decoding the bytes of one code point gives that code point back, whatever follows. */
  lemma DecodeFirstOfEncodeChar(c: char, rest: seq<byte>)
    ensures DecodeFirst(EncodeChar(c) + rest) == Some((c, |EncodeChar(c)|))
  {
    var v := c as int;
    var bs := EncodeChar(c) + rest;
    SixBits(v);
    if v < 0x80 {
    } else if v < 0x800 {
      assert bs[0] == 0xC0 + v / 64 && bs[1] == 0x80 + v % 64;
      assert (bs[0] as int - 0xC0) * 64 + (bs[1] as int - 0x80) == v;
    } else if v < 0x10000 {
      assert bs[0] == 0xE0 + v / 4096 && bs[1] == 0x80 + (v / 64) % 64 && bs[2] == 0x80 + v % 64;
      assert (bs[0] as int - 0xE0) * 4096 + (bs[1] as int - 0x80) * 64 + (bs[2] as int - 0x80) == v;
    } else {
      assert bs[0] == 0xF0 + v / 262144 && bs[1] == 0x80 + (v / 4096) % 64;
      assert bs[2] == 0x80 + (v / 64) % 64 && bs[3] == 0x80 + v % 64;
      assert (bs[0] as int - 0xF0) * 262144 + (bs[1] as int - 0x80) * 4096 + (bs[2] as int - 0x80) * 64 + (bs[3] as int - 0x80) == v;
    }
  }

  /** Decoding an encoded string gives the string back. */
  lemma {:induction false} DecodeEncode(s: string)
    ensures Decode(Encode(s)) == Some(s)
    decreases |s|
  {
    if |s| > 0 {
      var head := EncodeChar(s[0]);
      var tail := Encode(s[1..]);
      DecodeFirstOfEncodeChar(s[0], tail);
      assert (head + tail)[|head|..] == tail;
      DecodeEncode(s[1..]);
      assert [s[0]] + s[1..] == s;
    }
  }

  /** Encoding is injective: two strings with the same bytes are equal. */
  lemma EncodeInjective(s: string, t: string)
    requires Encode(s) == Encode(t)
    ensures s == t
  {
    DecodeEncode(s);
    DecodeEncode(t);
  }
}

=== FILE: values.dfy ===
/** The values the system handles after a parser has run: what `response.json()`,
    `xmltodict.parse` and `yaml.load` hand back, as Python objects. Dict keys are
    strings; floating-point numbers do not occur in this model. */
module Values {
  import opened Common

  datatype Value =
    | Null
    | Bool(b: bool)
    | Int(i: int)
    | Str(s: string)
    | List(items: seq<Value>)
    | Dict(fields: map<string, Value>)

  /** Python truthiness: `None`, `False`, `0` and empty containers are falsy. */
  predicate Truthy(v: Value) {
    match v
    case Null => false
    case Bool(b) => b
    case Int(i) => i != 0
    case Str(s) => |s| > 0
    case List(items) => |items| > 0
    case Dict(fields) => |fields| > 0
  }

  /** `v[key]`: defined only when v is a dict holding key; anything else raises
      `KeyError` or `TypeError` in the source. */
  function Get(v: Value, key: string): Option<Value> {
    if v.Dict? && key in v.fields then Some(v.fields[key]) else None
  }

  /** `v[path[0]][path[1]]...`, None when some step raises. */
  function Lookup(v: Value, path: seq<string>): Option<Value>
    decreases |path|
  {
    if |path| == 0 then Some(v)
    else match Get(v, path[0])
      case None => None
      case Some(child) => Lookup(child, path[1..])
  }

  /** Lookups along paths of one and two keys. */
  lemma LookupShort(v: Value, a: string, b: string)
    ensures Lookup(v, [a]) == Get(v, a)
    ensures Lookup(v, [a, b]) == match Get(v, a) case None => None case Some(c) => Get(c, b)
  {
    assert [a, b][1..] == [b];
    assert [b][1..] == [];
    match Get(v, a)
    case None =>
    case Some(c) => assert Lookup(c, [b]) == Get(c, b);
  }

  predicate IsPrefix(p: seq<string>, q: seq<string>) {
    |p| <= |q| && q[..|p|] == p
  }

  /** Two key paths are related when one leads through the other. */
  predicate Related(p: seq<string>, q: seq<string>) {
    IsPrefix(p, q) || IsPrefix(q, p)
  }

  /** An assignment to `path` succeeds: its parent exists and is a dict. */
  predicate Settable(v: Value, path: seq<string>)
    requires |path| > 0
  {
    match Lookup(v, path[..|path| - 1])
    case Some(parent) => parent.Dict?
    case None => false
  }

  /** The assignment `v[path[0]]...[path[n-1]] = x` on nested dicts; None when
      it raises because an intermediate key is missing or not a dict. */
  function SetPath(v: Value, path: seq<string>, x: Value): (r: Option<Value>)
    requires |path| > 0
    ensures r.Some? <==> Settable(v, path)
    ensures r.Some? ==> Lookup(r.value, path) == Some(x)
    decreases |path|
  {
    if !v.Dict? then None
    else if |path| == 1 then Some(Dict(v.fields[path[0] := x]))
    else if path[0] !in v.fields then None
    else
      assert path[..|path| - 1][1..] == path[1..][..|path| - 2];
      assert path[1..][0] == path[1];
      match SetPath(v.fields[path[0]], path[1..], x)
      case None => None
      case Some(child) => Some(Dict(v.fields[path[0] := child]))
  }

  /** Facts about prefixes that the lemmas below use in contrapositive form. */
  lemma PrefixFacts(p: seq<string>, q: seq<string>)
    ensures |p| == 0 ==> IsPrefix(p, q)
    ensures |p| > 0 && |q| > 0 && p[0] == q[0] && IsPrefix(p[1..], q[1..]) ==> IsPrefix(p, q)
    ensures |p| == 1 && |q| > 0 && p[0] == q[0] ==> IsPrefix(p, q)
    ensures |q| > 0 && IsPrefix(p, q[..|q| - 1]) ==> IsPrefix(p, q)
    ensures |q| > 0 && IsPrefix(q[..|q| - 1], p) && |q| - 1 >= |p| ==> IsPrefix(p, q)
  {
    if |p| > 0 && |q| > 0 && p[0] == q[0] && IsPrefix(p[1..], q[1..]) {
      assert q[..|p|] == [q[0]] + q[1..][..|p| - 1];
    }
    if |p| == 1 && |q| > 0 && p[0] == q[0] {
      assert q[..1] == p;
    }
    if |q| > 0 && IsPrefix(p, q[..|q| - 1]) {
      assert q[..|p|] == q[..|q| - 1][..|p|];
    }
    if |q| > 0 && IsPrefix(q[..|q| - 1], p) && |q| - 1 >= |p| {
      assert q[..|p|] == q[..|q| - 1];
    }
  }

  /** Assigning at p leaves every path unrelated to p as it was. */
  lemma {:induction false} SetPathFrame(v: Value, p: seq<string>, x: Value, q: seq<string>)
    requires |p| > 0 && SetPath(v, p, x).Some?
    requires !Related(p, q)
    ensures Lookup(SetPath(v, p, x).value, q) == Lookup(v, q)
    decreases |p|
  {
    PrefixFacts(q, p);
    var w := SetPath(v, p, x).value;
    if q[0] != p[0] {
      assert Get(w, q[0]) == Get(v, q[0]);
    } else {
      PrefixFacts(p, q);
      PrefixFacts(q, p);
      SetPathFrame(v.fields[p[0]], p[1..], x, q[1..]);
    }
  }

  /** Every dict on the way to an assigned path is still a dict afterwards. */
  lemma {:induction false} SetPathKeepsDicts(v: Value, p: seq<string>, x: Value, r: seq<string>)
    requires |p| > 0 && SetPath(v, p, x).Some?
    requires IsPrefix(r, p) && |r| < |p|
    ensures Lookup(SetPath(v, p, x).value, r).Some?
    ensures Lookup(SetPath(v, p, x).value, r).value.Dict?
    decreases |p|
  {
    if |r| > 0 {
      assert r[0] == p[0];
      assert IsPrefix(r[1..], p[1..]) by { assert p[1..][..|r| - 1] == p[..|r|][1..]; }
      SetPathKeepsDicts(v.fields[p[0]], p[1..], x, r[1..]);
    }
  }

  /** An assignment that succeeded before one at p still succeeds after it,
      unless p leads through it. */
  lemma SetPathKeepsSettable(v: Value, p: seq<string>, x: Value, q: seq<string>)
    requires |p| > 0 && |q| > 0 && SetPath(v, p, x).Some? && Settable(v, q)
    requires !IsPrefix(p, q)
    ensures Settable(SetPath(v, p, x).value, q)
  {
    var parent := q[..|q| - 1];
    PrefixFacts(p, q);
    if IsPrefix(parent, p) && |parent| < |p| {
      SetPathKeepsDicts(v, p, x, parent);
    } else {
      SetPathFrame(v, p, x, parent);
    }
  }

  /** A lookup that gets past a prefix found a dict there. */
  lemma {:induction false} LookupPassesDicts(v: Value, r: seq<string>, s: seq<string>)
    requires Lookup(v, s).Some? && IsPrefix(r, s) && |r| < |s|
    ensures Lookup(v, r).Some? && Lookup(v, r).value.Dict?
    decreases |r|
  {
    if |r| > 0 {
      assert r[0] == s[0];
      assert IsPrefix(r[1..], s[1..]) by { assert s[1..][..|r| - 1] == s[..|r|][1..]; }
      LookupPassesDicts(v.fields[s[0]], r[1..], s[1..]);
    }
  }

  /** An assignment at p neither enables nor disables an assignment at a path
      unrelated to p. */
  lemma SetPathSettableIff(v: Value, p: seq<string>, x: Value, q: seq<string>)
    requires |p| > 0 && |q| > 0 && SetPath(v, p, x).Some?
    requires !Related(p, q)
    ensures Settable(SetPath(v, p, x).value, q) <==> Settable(v, q)
  {
    var parent := q[..|q| - 1];
    PrefixFacts(p, q);
    if IsPrefix(parent, p) && |parent| < |p| {
      SetPathKeepsDicts(v, p, x, parent);
      var pp := p[..|p| - 1];
      assert IsPrefix(parent, pp) by { assert pp[..|parent|] == p[..|parent|]; }
      if |parent| < |pp| {
        LookupPassesDicts(v, parent, pp);
      } else {
        assert parent == pp;
      }
    } else {
      SetPathFrame(v, p, x, parent);
    }
  }

  /** What an f-string hole shows for a value: a string as it is; `str()` of any
      other value is given by show. */
  function Render(v: Value, show: Value -> string): (r: string)
    ensures v.Str? ==> r == v.s
    ensures !v.Str? ==> r == show(v)
  {
    if v.Str? then v.s else show(v)
  }

  /** The elements a `for` loop visits when the loop body then indexes each element
      with a string key. A list yields its items and an empty string or dict yields
      nothing. Anything else makes the loop raise before any element was used:
      `None`, numbers and booleans are not iterable, and a non-empty string or
      dict yields strings, which cannot be indexed with a string key. */
  function Elements(v: Value): (r: Option<seq<Value>>)
    ensures r.Some? <==> v.List? || v == Str("") || v == Dict(map[])
    ensures v.List? ==> r == Some(v.items)
    ensures r.Some? && !v.List? ==> r.value == []
  {
    match v
    case List(items) => Some(items)
    case Str(s) => if |s| == 0 then Some([]) else None
    case Dict(fields) => if |fields| == 0 then Some([]) else None
    case _ => None
  }

  /** What a keyed fold stores for each item: the item itself or one of its fields. */
  datatype Projection = Whole | Field(key: string)

  /** The key and value `index[item['name']] = <projection of item>` stores, or None
      when evaluating either side raises. A name that is not a string is treated as
      malformed. */
  function Entry(item: Value, proj: Projection): (r: Option<(string, Value)>)
    ensures r.Some? <==> Get(item, "name").Some? && Get(item, "name").value.Str?
                         && (proj.Field? ==> Get(item, proj.key).Some?)
    ensures r.Some? ==> Get(item, "name") == Some(Str(r.value.0))
    ensures r.Some? && proj.Whole? ==> r.value.1 == item
    ensures r.Some? && proj.Field? ==> Get(item, proj.key) == Some(r.value.1)
  {
    match Get(item, "name")
    case Some(Str(name)) =>
      (match proj
       case Whole => Some((name, item))
       case Field(key) =>
         (match Get(item, key)
          case Some(x) => Some((name, x))
          case None => None))
    case _ => None
  }

  /** The result of a keyed fold; complete is false when the loop raised part way,
      in which case index holds the assignments made before the failing item. */
  datatype Indexed = Indexed(index: map<string, Value>, complete: bool)

  /** `for item in items: index[item['name']] = <projection of item>`, starting from m. */
  function IndexByName(m: map<string, Value>, items: seq<Value>, proj: Projection): (r: Indexed)
    ensures m.Keys <= r.index.Keys
    ensures r.complete <==> forall i :: 0 <= i < |items| ==> Entry(items[i], proj).Some?
    decreases |items|
  {
    if |items| == 0 then Indexed(m, true)
    else match Entry(items[0], proj)
      case None => Indexed(m, false)
      case Some(kv) =>
        var r := IndexByName(m[kv.0 := kv.1], items[1..], proj);
        assert forall i :: 1 <= i < |items| ==> items[i] == items[1..][i - 1];
        r
  }

  /** A name that no item carries keeps the value it had before the fold (or stays absent). */
  lemma {:induction false} IndexKeepsUnnamed(m: map<string, Value>, items: seq<Value>, proj: Projection, n: string)
    requires IndexByName(m, items, proj).complete
    requires forall i :: 0 <= i < |items| ==> Entry(items[i], proj).value.0 != n
    ensures n in IndexByName(m, items, proj).index <==> n in m
    ensures n in m ==> IndexByName(m, items, proj).index[n] == m[n]
    decreases |items|
  {
    if |items| > 0 {
      var kv := Entry(items[0], proj).value;
      assert forall i :: 0 <= i < |items| - 1 ==> items[1..][i] == items[i + 1];
      IndexKeepsUnnamed(m[kv.0 := kv.1], items[1..], proj, n);
    }
  }

  /** The last item carrying a name decides what that name maps to: later
      duplicates overwrite earlier ones. */
  lemma {:induction false} IndexLastWins(m: map<string, Value>, items: seq<Value>, proj: Projection, i: nat)
    requires IndexByName(m, items, proj).complete
    requires i < |items|
    requires forall j :: i < j < |items| ==> Entry(items[j], proj).value.0 != Entry(items[i], proj).value.0
    ensures Entry(items[i], proj).value.0 in IndexByName(m, items, proj).index
    ensures IndexByName(m, items, proj).index[Entry(items[i], proj).value.0] == Entry(items[i], proj).value.1
    decreases |items|
  {
    var kv := Entry(items[0], proj).value;
    assert forall j :: 0 <= j < |items| - 1 ==> items[1..][j] == items[j + 1];
    if i == 0 {
      IndexKeepsUnnamed(m[kv.0 := kv.1], items[1..], proj, kv.0);
    } else {
      IndexLastWins(m[kv.0 := kv.1], items[1..], proj, i - 1);
    }
  }

  /** Every item's name ends up in the index. */
  lemma {:induction false} IndexHasEveryName(m: map<string, Value>, items: seq<Value>, proj: Projection, i: nat)
    requires IndexByName(m, items, proj).complete
    requires i < |items|
    ensures Entry(items[i], proj).value.0 in IndexByName(m, items, proj).index
    decreases |items|
  {
    var kv := Entry(items[0], proj).value;
    assert forall j :: 0 <= j < |items| - 1 ==> items[1..][j] == items[j + 1];
    if i > 0 {
      IndexHasEveryName(m[kv.0 := kv.1], items[1..], proj, i - 1);
    }
  }

  /** When item k is the first malformed one, the fold stops there: the index holds
      exactly the assignments of the items before k. */
  lemma {:induction false} IndexStopsAtMalformed(m: map<string, Value>, items: seq<Value>, proj: Projection, k: nat)
    requires k < |items| && Entry(items[k], proj).None?
    requires forall i :: 0 <= i < k ==> Entry(items[i], proj).Some?
    ensures !IndexByName(m, items, proj).complete
    ensures IndexByName(m, items, proj).index == IndexByName(m, items[..k], proj).index
    decreases |items|
  {
    if k > 0 {
      var kv := Entry(items[0], proj).value;
      assert items[1..][..k - 1] == items[..k][1..];
      assert forall i :: 0 <= i < |items| - 1 ==> items[1..][i] == items[i + 1];
      IndexStopsAtMalformed(m[kv.0 := kv.1], items[1..], proj, k - 1);
    }
  }
}
